=== FILE: README.md ===
# django-viewsets in Dafny

A model of the core of `django-viewsets`. The library lets a Django project
declare one *viewset* class per model. The viewset is made of CRUD mixins:
list, detail, create, update and delete. It then builds the URL patterns of
the views it composes, puts the patterns under a namespace, reverses names
through that namespace, and guards its views with permission checkers. A
handful of template tags work on top of a viewset.

The model follows the package's modules:

| Dafny module | file | package module |
|---|---|---|
| `Records` | `records.dfy` | shared values: users, model `_meta`, instances, errors, `OrderedDict` construction |
| `Permissions` | `permissions.dfy` | `viewsets/permissions.py`: the four checker classes and the `permission_check_classes` loop |
| `Helpers` | `helpers.dfy` | `viewsets/helpers.py`: `make_mixin` |
| `Views` | `views.dfy` | `viewsets/views.py`: the five view classes, template names, context data, success URLs |
| `Mixins` | `mixins.dfy` | `viewsets/mixins.py` and `viewsets/viewset.py`: attribute declarations, the constructor keyword loop, route building, the `collect_urls` chain, the namespace, the field walk of `serialize_object` |
| `ViewSets` | `viewset.dfy` | class `ViewSet`: a viewset instance with its attributes, its memoised `_namespace` and `_urls`, its guard and its serializer |
| `Generic` | `generic.dfy` | `viewsets/generic.py`: `ModelViewSet` and `ReadOnlyModelViewSet` |
| `Tags` | `viewsets_tags.dfy` | `viewsets/templatetags/viewsets_tags.py` |

A viewset class is given as a `Composition`, which lists:

- its CRUD mixins, in method-resolution order;
- its namespace mixin (none, `NamespaceMixin` or `ModelNamespaceMixin`);
- its guard (none, `GuardMixin` or `PermissionsMixin`);
- whether the older `viewsets.BaseViewSet` is among its bases.

The composition decides which class attributes exist. Their defaults are
`ClassDefaults`. A `ViewSet` object holds the instance's attribute map, which
the constructor keywords update.

Exceptions the Python code raises become values:

- `Result` (`Ok`/`Err`) and `Outcome` (`Proceed`/`Raised`);
- the errors are `AttributeError`, `AssertionError`, `KeyError`, `TypeError` and `PermissionDenied`.

`collect_urls` runs down the method-resolution order through `super()`. Each
mixin builds its own route first, then passes it in front of the routes it
was handed. So the routes come out in reverse MRO order, and the first mixin
whose build raises decides the error. `Mixins.ChainRoutes` models that
chain.

Every route is built from a view class that `wrap_view` composes with the
viewset's mixins through `make_mixin`. As written, that composition never
succeeds (see "## Findings"). The model keeps both versions:

- `Helpers.MakeMixinAsWritten`, `Mixins.WrapViewAsWritten`,
  `Mixins.BuildRouteAsWritten` and `Mixins.CollectUrlsAsWritten` follow the
  code as written, and the lemmas about them show that it always raises;
- `Helpers.MakeMixin` is the intended composer: it builds the class from a
  tuple of bases and leaves out any mixin the view class already derives
  from, so that no mixin is applied twice. `WrapView`, `BuildRoute`,
  `CollectUrls`, the `ViewSet` class and the `Generic` lemmas use it.

## Model

| member | source | states |
|---|---|---|
| Records.PyStr | viewsets/mixins.py:27 | `str()` of a namespace: the string itself, or "None" when there is none |
| Records.OdSet | viewsets/mixins.py:70 | `OrderedDict` assignment keeps the length for a key already present and appends a new key, with its value, at the end |
| Records.OdSetValues | viewsets/mixins.py:70 | on a dictionary with distinct keys, assigning a present key replaces that key's value in place and leaves every other entry as it was |
| Records.OdSetKeySeq | viewsets/mixins.py:70 | the key sequence after an assignment is unchanged for an old key and gains the new key at the end otherwise |
| Records.OdSetKeys | viewsets/mixins.py:70 | assignment keeps the earlier keys in place, adds exactly the assigned key, and keeps keys distinct |
| Records.OrderedDictOfDistinct | viewsets/mixins.py:70 | `OrderedDict(pairs)` of pairs with distinct keys is those pairs in order |
| Records.OrderedDictOfKeySet | viewsets/mixins.py:70 | `OrderedDict(pairs)` has exactly the keys that occur among the pairs |
| Records.OrderedDictOfUnique | viewsets/mixins.py:70 | `OrderedDict(pairs)` never holds a key twice |
| Records.OrderedDictOfKeys | viewsets/templatetags/viewsets_tags.py:52-55 | the dictionary built from the pairs has the same key set and distinct keys |
| Records.OrderedDictOfLast | viewsets/mixins.py:70 | a pair whose key does not occur later is in `OrderedDict(pairs)`: a repeated key keeps the value of its last pair |
| Permissions.PermissionString | viewsets/permissions.py:43-45 | the permission asked for is `app_label.action_modelname` |
| Permissions.BaseAllowsEverything | viewsets/permissions.py:12-22 | the base checker grants view and object access to everyone |
| Permissions.ModelCheckerTable | viewsets/permissions.py:26-47 | list, detail and unknown view names are allowed; for a request with a user, add, edit and delete need the add, change and delete permission of the model; without a user they raise `AttributeError` on `has_perm` |
| Permissions.ModelCheckerWithoutModel | viewsets/permissions.py:43-47 | without a model the model checker raises exactly for add, edit and delete and allows every other name |
| Permissions.LoginCheckerTable | viewsets/permissions.py:50-58 | access is granted exactly to a present, authenticated user |
| Permissions.StricterCheckersImplyLogin | viewsets/permissions.py:61-82 | the superuser and staff checkers grant exactly authenticated superusers or staff, and each grant implies the login checker's |
| Permissions.NonStaffSuperuserDenied | viewsets/permissions.py:73-82 | a superuser who is not staff passes the superuser checker but is refused by the staff checker |
| Permissions.ObjectAccessIsViewAccess | viewsets/permissions.py:40-82 | every checker but the base one answers object access with its view access |
| Permissions.ChainAllowsIffAll | viewsets/mixins.py:132-142 | the permission-checker loop allows iff every checker in the list allows |
| Permissions.ChainDeniesAtFirstDenial | viewsets/mixins.py:132-142 | a refusal comes from a checker that refuses after all earlier ones allowed |
| Permissions.ChainFirstDecides | viewsets/mixins.py:132-142 | when every checker before the k-th allows and the k-th does not, the loop answers the k-th checker's refusal or error, whatever the later checkers would answer |
| Permissions.ChainRaisesOnlyOnAuthPermission | viewsets/permissions.py:26-47 | the loop can only raise when the model checker is listed, the view is add, edit or delete, and there is no model or no user |
| Permissions.ChainOrderIndependent | viewsets/mixins.py:132-142 | with a model and a user, checker order and repetition do not change the answer |
| Permissions.ChainOrderMattersWithoutModel | viewsets/mixins.py:132-142 | without a model, a login checker listed first turns an anonymous user's raise into a refusal |
| Permissions.ChainOrderMattersWithoutUser | viewsets/permissions.py:43-47 | with a model but no user, a login checker listed first turns the model checker's `AttributeError` into a refusal |
| Permissions.BaseAndStaffChain | viewsets/mixins.py:132-142 | adding the base checker in either position leaves the staff checker's answer |
| Helpers.MakeMixinShape | viewsets/helpers.py:6-10 | with mixins, the intended composer keeps the view's name, lists the mixins the view does not already derive from and then the view, and carries the given attributes; distinct mixins new to the view become exactly the bases, in the order given, followed by the view |
| Helpers.MakeMixinAsWrittenRaises | viewsets/helpers.py:6-11 | as written, `make_mixin` raises `TypeError` exactly when mixins are given, because `type()` gets an `itertools.chain` where it needs a tuple; without mixins it returns the view class |
| Helpers.NewMixinsMembers | viewsets/helpers.py:8-10 | the intended composer lists a mixin iff it was passed and the view class does not already derive from it |
| Helpers.NewMixinsDistinct | viewsets/helpers.py:8-10 | the intended composer lists no mixin twice |
| Helpers.NewMixinsAllKept | viewsets/helpers.py:8-10 | distinct mixins that the view does not derive from are all kept, in the order given |
| Helpers.MakeMixinBasesAccepted | viewsets/helpers.py:8-10 | when no mixin derives from another, the intended composer's bases are ones `type()` accepts: no base twice and none in front of a subclass of it |
| Helpers.MakeMixinEmpty | viewsets/helpers.py:7-11 | with no mixins the view class itself is returned |
| Helpers.MakeMixinSubclasses | viewsets/helpers.py:6-11 | the composed class derives from a class iff it is that class or the view or one of the mixins derives from it: leaving a mixin out loses no ancestor |
| Views.ViewClassOf | viewsets/views.py:42-68 | each view class has `TemplateMixin`, `GenericViewMixin` and Django's view as bases, and its `generic_name` |
| Views.GenericNames | viewsets/views.py:42-65 | the generic names are list, detail, create, update and delete |
| Views.SingleObjectViews | viewsets/views.py:42-68 | every view but the list view is a single-object view |
| Views.TemplateNames | viewsets/views.py:19-34 | the inherited template names stay at the end of the answer |
| Views.TemplateNamesWithModel | viewsets/views.py:22-32 | with a model and a generic name, the app/model, app, bare and `viewsets/` names come first, in that order |
| Views.TemplateNamesWithoutModel | viewsets/views.py:22-23 | without a model only `viewsets/<generic_name>.html` is put in front |
| Views.TemplateNamesWithoutGenericName | viewsets/views.py:19-34 | without a generic name the inherited names are returned unchanged |
| Views.ContextDataEntries | viewsets/views.py:10-39 | the context holds the keywords plus `viewset` and, with a model, `model_meta`; other keywords keep their values |
| Views.SuccessTargets | viewsets/views.py:50-68 | create and update redirect to `detail` of the object's pk, delete to `list`; list and detail define no redirect |
| Mixins.DeclaredKeys | viewsets/mixins.py:16-234 | a name is an attribute of the viewset class iff one of its mixins declares it |
| Mixins.ClassDefaults | viewsets/mixins.py:16-234 | a viewset class has a default for exactly its declared attributes |
| Mixins.DefaultsConfigured | viewsets/mixins.py:16-234 | the class defaults are a well-typed attribute map of the class |
| Mixins.ApplyKeywords | viewsets/viewset.py:13-15 | the keywords override attributes that exist; an unknown keyword raises `AssertionError('Pass unknown parameter')`; no attribute is added |
| Mixins.KeywordsKeepTypes | viewsets/viewset.py:13-15 | overriding with well-typed keywords keeps the attribute map well typed |
| Mixins.KeywordsApplied | viewsets/viewset.py:13-15 | once every keyword is set, the attributes are the old ones overridden by the keywords |
| Mixins.ConcreteFieldsMembers | viewsets/mixins.py:42-47 | the concrete fields are exactly the listed fields that are concrete |
| Mixins.ConcreteFieldsAppend | viewsets/mixins.py:64-68 | the concrete-field filter distributes over concatenation |
| Mixins.FieldNames | viewsets/mixins.py:43-44 | one name per field, in order |
| Mixins.ReadWriteFieldsMembers | viewsets/mixins.py:42-47 | `read_write_fields` names exactly the model's own concrete fields |
| Mixins.ReadWriteFieldsAppend | viewsets/mixins.py:42-47 | a new own field adds its name at the end iff it is concrete |
| Mixins.FieldNamesAppend | viewsets/mixins.py:43-44 | field names distribute over concatenation |
| Mixins.FieldPairsSpec | viewsets/mixins.py:72-88 | the walk succeeds iff the object has every field's attribute; then it gives (verbose name, value) per field in order; otherwise it raises for a missing one |
| Mixins.FieldPairsErrPrefix | viewsets/mixins.py:64-68 | once a field raises, later fields do not change the error |
| Mixins.FieldPairsMissing | viewsets/mixins.py:64-77 | the first concrete field without an attribute decides the error |
| Mixins.SerializeFields | viewsets/mixins.py:61-88 | the loop over the fields skips non-concrete ones and equals the field walk over the concrete ones, error included |
| Mixins.SerializedSpec | viewsets/mixins.py:61-88 | `serialize_object` succeeds iff every own concrete field is readable; its keys are exactly those fields' titles, each once, with values in field order when titles are distinct |
| Mixins.FieldPairsTitles | viewsets/mixins.py:61-70 | the dictionary of the walk's pairs has exactly the fields' titles as keys, each once |
| Mixins.FieldPairsInOrder | viewsets/mixins.py:61-70 | with distinct titles the dictionary is the walk's pairs in field order |
| Mixins.SerializedLastValue | viewsets/mixins.py:61-70 | where titles repeat, `serialize_object` keeps the value of the last concrete field with that title |
| Mixins.GetMixinClassesSpec | viewsets/mixins.py:102-106 | unguarded views get `GenericViewMixin`; guarded ones also get the dispatch mixin in front, and single-object views the object check mixin at the end |
| Mixins.WrapViewSpec | viewsets/viewset.py:23-26 | with the intended composer, the view is handed the viewset as its `viewset` keyword and becomes a class with the view's name that derives from the view and from every mixin `get_mixin_classes` asks for, with bases `type()` accepts |
| Mixins.WrapViewBases | viewsets/viewset.py:17-26 | the composed bases are the dispatch mixin, the object check mixin for single-object views, then the view; `GenericViewMixin` is not listed again, so an unguarded view is its own only base |
| Mixins.ViewClassNotGuarded | viewsets/views.py:42-68 | none of the five view classes derives from the guard's mixins |
| Mixins.WrapViewAsWrittenRaises | viewsets/mixins.py:102-106 | as written, `wrap_view` always raises: `TypeError` from `make_mixin` without a guard, `AttributeError` for the missing `views.DispatchViewMixin` with one |
| Mixins.TupleBasesRejected | viewsets/viewset.py:17-25 | even as a tuple, the base list `make_mixin` would get lists `GenericViewMixin` in front of a view that derives from it, which `type()` rejects |
| Mixins.BuildRouteFails | viewsets/mixins.py:219-226 | building a route raises exactly for create and update when `fields` is empty and there is no model, with the intended composer |
| Mixins.BuildRouteNamed | viewsets/mixins.py:155-265 | each route carries its mixin's name |
| Mixins.ViewKwargsShared | viewsets/mixins.py:168-279 | every view's keywords pass the viewset's model and queryset |
| Mixins.BuildRouteView | viewsets/mixins.py:155-279 | a built route has its mixin's name and pattern, the wrapped view class, and the viewset, model and queryset as keywords, with the intended composer |
| Mixins.BuildRouteFields | viewsets/mixins.py:224 | create and update views get `fields`, or the model's read/write fields when `fields` is empty |
| Mixins.ChainSucceeds | viewsets/mixins.py:155-158 | the `super()` chain succeeds iff every mixin's build succeeds |
| Mixins.ChainFails | viewsets/mixins.py:155-158 | a failing chain raises the error of the first failing build in MRO order |
| Mixins.ChainOrder | viewsets/mixins.py:155-158 | the chain's routes are the built ones in reverse order, followed by the routes it was handed |
| Mixins.ReversedRouteNames | viewsets/mixins.py:155-265 | the route names of the mixins, last mixin first |
| Mixins.CollectUrlsSucceeds | viewsets/mixins.py:155-265 | `collect_urls` succeeds iff every CRUD mixin builds its route |
| Mixins.CollectUrlsFails | viewsets/mixins.py:155-265 | a failing `collect_urls` raises the first failing mixin's error in MRO order |
| Mixins.CollectUrlsOrder | viewsets/mixins.py:155-265 | `collect_urls` returns the mixins' routes last mixin first, then the routes handed in |
| Mixins.CollectUrlsNames | viewsets/mixins.py:155-265 | the collected route names are the mixins' names in reverse MRO order, then the handed-in names |
| Mixins.NamesOfReversedRoutes | viewsets/mixins.py:155-265 | routes laid out in reverse mixin order carry the reversed route names |
| Mixins.CollectUrlsAsWrittenRaises | viewsets/mixins.py:155-158 | as written, `collect_urls` of a viewset with any CRUD mixin raises the error of `wrap_view`; with none it returns the routes handed in |
| Mixins.DerivedNamespaceSpec | viewsets/mixins.py:51-57 | an explicit namespace wins; otherwise a model gives its dashed class name; otherwise there is no namespace |
| Mixins.QualifiedNameSpec | viewsets/mixins.py:26-27 | the reversed name is the namespace's `str()`, a colon, and the name |
| Mixins.Patterns | viewsets/mixins.py:21-24 | the pattern list holds one pattern per route, in order |
| ViewSets.ViewSet.constructor | viewsets/viewset.py:10-12 | a new viewset has its class's default attributes and nothing memoised |
| ViewSets.ViewSet.Init | viewsets/viewset.py:11-15 | the keywords override the declared attributes; an unknown one raises `AssertionError('Pass unknown parameter')` |
| ViewSets.ViewSet.GetNamespace | viewsets/mixins.py:18-19 | `NamespaceMixin` answers its attribute; `ModelNamespaceMixin` (lines 50-57) derives it once and memoises it |
| ViewSets.ViewSet.Reverse | viewsets/mixins.py:26-28 | without a namespace mixin the name is reversed as given; with one, under `namespace:name`, and the namespace does not change |
| ViewSets.ViewSet.SuccessUrl | viewsets/views.py:50-68 | create and update redirect to the viewset's `detail` of the object, delete to its `list` |
| ViewSets.ViewSet.GetUrls | viewsets/mixins.py:21-24 | the collected routes as patterns under the viewset's namespace, or the error of `collect_urls` |
| ViewSets.ViewSet.Urls | viewsets/viewset.py:36-40 | the first call computes and memoises the URL set; later calls answer the memo |
| ViewSets.ViewSet.HasViewAccess | viewsets/mixins.py:132-136 | the loop answers the permission-checker chain at view level |
| ViewSets.ViewSet.HasObjectAccess | viewsets/mixins.py:138-142 | the loop answers the permission-checker chain at object level |
| ViewSets.ViewSet.HasAccess | viewsets/mixins.py:144-148 | with an object it asks for object access, otherwise for view access |
| ViewSets.ViewSet.PreDispatchRequest | viewsets/mixins.py:115-128 | `GuardMixin` lets every request through; under `PermissionsMixin` the request proceeds iff the permission-checker chain allows, a refusal raises `PermissionDenied`, and a checker's own error propagates |
| ViewSets.ViewSet.CheckObject | viewsets/mixins.py:120-128 | the same for object access |
| ViewSets.ViewSet.SerializeObject | viewsets/mixins.py:61-70 | without a model `_meta` raises; with one the answer is the serialised object |
| Generic.ModelViewSetAttributes | viewsets/generic.py:7-11 | a `ModelViewSet` declares the nine attributes of its mixins and can serialise |
| Generic.ReadOnlyModelViewSetAttributes | viewsets/generic.py:14-16 | a `ReadOnlyModelViewSet` declares five attributes and no editing ones |
| Generic.ModelViewSetBuilds | viewsets/generic.py:7-11 | a `ModelViewSet` builds its routes iff it has `fields` or a model, with the intended composer |
| Generic.CrudRouteNames | viewsets/generic.py:7-16 | the two viewsets' route names, last mixin first |
| Generic.ModelViewSetRoutes | viewsets/generic.py:7-11 | the routes come out as delete, edit, add, detail, list, with the intended composer |
| Generic.ReadOnlyModelViewSetRoutes | viewsets/generic.py:14-16 | a read-only viewset always builds detail then list, with the intended composer |
| Generic.GenericViewsUnguarded | viewsets/generic.py:7-11 | without a guard, the intended composer leaves each view class as its own only base; as written, `wrap_view` raises `TypeError` |
| Generic.GenericUrlsAsWritten | viewsets/generic.py:7-16 | as written, neither ready-made viewset can build its URLs, whatever its attributes: the first `wrap_view` raises `TypeError` |
| Generic.ReversalUnderNamespace | viewsets/mixins.py:26-28 | a viewset with namespace `ns` reverses every name `n` to `ns:n` |
| Generic.PatternsNamed | viewsets/mixins.py:21-24 | the pattern entries carry the routes' names |
| Generic.NamespaceFromModel | viewsets/mixins.py:50-57 | before the memo, a model without an explicit namespace gives the dashed class name |
| Generic.ModelKeywordAttributes | viewsets/viewset.py:11-15 | `model=` is an accepted keyword of a `ModelViewSet` and leaves the namespace unset |
| Generic.NewModelViewSet | viewsets/generic.py:7-11 | a `ModelViewSet` built with a model has that model and the model's dashed class name as namespace |
| Generic.ModelViewSetUrls | viewsets/generic.py:7-11 | a `ModelViewSet` with a model answers five patterns, delete to list, under its namespace, with the intended composer |
| Generic.MountModelViewSet | viewsets/viewset.py:36-40 | reading `urls` on such a viewset gives and memoises those five patterns under the dashed model name, with the intended composer |
| Tags.FindRoute | viewsets/templatetags/viewsets_tags.py:16-20 | true iff some pattern entry carries the name |
| Tags.ViewsetHas | viewsets/templatetags/viewsets_tags.py:15-20 | whether the viewset's URL set has a route of that name; without a viewset, `urls` raises; afterwards `_urls` holds the URL set when it could be built, the `urls` answer and namespace are unchanged, and the attributes stay configured |
| Tags.ViewsetHasPermission | viewsets/templatetags/viewsets_tags.py:24-31 | false without the route; otherwise the viewset's `is_has_permission`, or true without one; afterwards the viewset stays configured, `_urls` holds the URL set when it could be built, and the `urls` answer and namespace are unchanged |
| Tags.ViewsetReverse | viewsets/templatetags/viewsets_tags.py:35-38 | a missing viewset raises `KeyError`, a None one `AssertionError`; otherwise the name is reversed through it, leaving its attributes, `_urls` and namespace as they were |
| Tags.ViewsetHasAgain | viewsets/viewset.py:36-40 | two successive `viewset_has` lookups of a name give the same answer, because the second is answered from `_urls` or recomputes the same failure |
| Tags.RenderForm | viewsets/templatetags/viewsets_tags.py:42-46 | crispy-forms' rendering when installed, else `as_table()` |
| Tags.RenderObjectSpec | viewsets/templatetags/viewsets_tags.py:50-56 | rendering succeeds iff every field is readable; its keys are then the titles of all fields, each once; with distinct titles it lists each field's title and value in field order |
| Tags.RenderObjectLastValue | viewsets/templatetags/viewsets_tags.py:50-56 | where titles repeat, the tag keeps the value of the last field with that title |
| Tags.RenderObjectMatchesSerialized | viewsets/templatetags/viewsets_tags.py:50-56 | for a model without parents and with concrete fields only, the tag shows what `serialize_object` gives |

## Left out

- The Django machinery is not part of this model: the ORM, URL resolving (`patterns`, `include`, `reverse_lazy`), template rendering and HTTP. A URL set is a list of routes with its namespace; a reversed URL is the qualified name with its positional arguments.
- The `print` in `_has_auth_permission` (viewsets/permissions.py:46) is output only.
- `user.has_perm` is modelled as membership in the user's permission set; Django's backends and group permissions are left out.
- `get_permission_codename` is modelled as `action_modelname`.
- Permission checker classes other than the four in viewsets/permissions.py are not modelled; `permission_check_classes` is a list of those four.
- `ViewSets.ViewSet.Init`: only data attributes are accepted as keywords. The Python `hasattr` also accepts method names, so a keyword that replaces a method is not modelled. The keywords must also be well typed for their attribute.
- `ViewSets.ViewSet.Init`: the keywords are applied in some order. Only an unknown keyword stops the loop, so whether the known keywords before it were set is left open. This follows the unordered `kwargs.iteritems()`.
- `serialize_field` turns `ForeignKey` values into their `unicode()` and many-to-many values into the `unicode()` of the first three related objects. The model keeps attribute values abstract and does not model that formatting.
- Relation fields count as concrete fields as far as `isinstance(field, Field)` goes; each field carries that answer as a flag.
- `helpers.camelcase_to_dash` is a parameter of the viewset, not a definition. viewsets/helpers.py does not define it, so as written the model-derived namespace of `ModelNamespaceMixin` (viewsets/mixins.py:55) raises `AttributeError`; the model assumes the intended conversion function instead.
- `DispatchViewMixin` and `CheckObjectViewMixin` are not defined in viewsets/views.py. The intended model treats them as classes with no bases of interest; what they would do at dispatch is not modelled. Django's view classes are name tokens with the bases they need here.
- `has_access` tests `if obj`, and the model treats any given object as true. Objects whose `__bool__` is false are not modelled.
- The method-resolution order of a viewset is given by the order of its CRUD mixins; C3 linearisation is not computed. `Helpers.BasesAccepted` states only the two rules on a base list that matter here: no base twice, and no base in front of one of its subclasses.
- `is_has_permission` is defined by no class of the package (`PermissionsMixin` has `has_access`, viewsets/mixins.py:144), so for the package's own viewsets the permission tag answers true whenever the route exists.
- `is_has_permission` is a parameter of the permission tag; any exception it raises is not modelled.
- The extra `*args`/`**kwargs` of `viewset_render_form` and the keyword arguments of `reverse` are dropped.
- Django's `ContextMixin.get_context_data` own additions (such as `view`) are not modelled; the context is the keywords plus what the two mixins add.
- viewsets/viewsets.py, viewsets/compat.py, setup.py and the example project are not part of this model. The older `BaseViewSet` enters only through the `namespace` and `mixin_classes` attributes it declares.
- `verbose_name` of relation fields and the rest of Django's `_meta` API are carried as plain data.
- Permissions.ChainOrderIndependent: holds only for a request that carries a user; without one the order decides between a refusal and `AttributeError` (`Permissions.ChainOrderMattersWithoutUser`).
- Helpers.MakeMixinShape: states the intended composer; as written `make_mixin` raises for any mixin (`Helpers.MakeMixinAsWrittenRaises`).
- Helpers.MakeMixinSubclasses: states the intended composer; as written there is no composed class.
- Mixins.WrapViewSpec: states the intended composer; as written `wrap_view` raises (`Mixins.WrapViewAsWrittenRaises`).
- Mixins.BuildRouteFails: states the intended composer; as written every build raises in `wrap_view` first (`Mixins.CollectUrlsAsWrittenRaises`).
- Mixins.BuildRouteView: states the intended composer; as written no route is built.
- ViewSets.ViewSet.GetUrls: collects with the intended composer; as written `get_urls` raises for any viewset with a CRUD mixin.
- ViewSets.ViewSet.Urls: memoises the intended URL set; as written the first access raises and nothing is memoised.
- Generic.ModelViewSetBuilds: states the intended composer; as written the routes are never built (`Generic.GenericUrlsAsWritten`).
- Generic.ModelViewSetRoutes: states the intended composer; as written there are no routes.
- Generic.ReadOnlyModelViewSetRoutes: states the intended composer; as written `collect_urls` raises `TypeError`.
- Generic.ModelViewSetUrls: states the intended composer; as written `urls` raises `TypeError`.
- Generic.MountModelViewSet: states the intended composer; as written `urls` raises `TypeError`.

## Findings

| source | as written | input that shows it | evidently intended | confidence | as-written member | corrected member |
|---|---|---|---|---|---|---|
| viewsets/helpers.py:8-10 | `make_mixin` gives `type()` an `itertools.chain` of the mixins and the view as its bases | any non-empty mixin list, such as the `(GenericViewMixin,)` every unguarded viewset passes: `type()` raises `TypeError` because its second argument must be a tuple | a tuple of the mixins followed by the view class | high; not executed | Helpers.MakeMixinAsWrittenRaises, Mixins.CollectUrlsAsWrittenRaises | Helpers.MakeMixinShape |
| viewsets/viewset.py:17-25 | `get_mixin_classes` returns `GenericViewMixin`, which every view class in viewsets/views.py:42-68 already derives from, and `make_mixin` lists it in front of the view | the list view of a `ModelViewSet`: bases `(GenericViewMixin, ListView)`, for which no consistent method resolution order exists | compose only the mixins the view does not already have, each once | medium; not executed | Mixins.TupleBasesRejected | Mixins.WrapViewSpec, Helpers.MakeMixinBasesAccepted |
| viewsets/mixins.py:102-106 | `GuardMixin.get_mixin_classes` reads `views.DispatchViewMixin` and `views.CheckObjectViewMixin`, which viewsets/views.py does not define | `urls` of any viewset with `GuardMixin` or `PermissionsMixin` and a CRUD mixin: `AttributeError` | two mixins defined in viewsets/views.py that call the guard's `pre_dispatch_request` and `check_object` | medium; not executed | Mixins.WrapViewAsWrittenRaises | Mixins.WrapViewBases |

=== FILE: generic.dfy ===
/** viewsets/generic.py: the two ready-made viewsets. `ModelViewSet` composes
    all five CRUD mixins with the model namespace; `ReadOnlyModelViewSet` only
    the list and detail mixins. Neither has a guard. */
module Generic {
  import opened Records
  import opened Helpers
  import opened Views
  import opened Mixins
  import opened ViewSets

  const ModelViewSet: Composition :=
    Composition([ListMixin, DetailMixin, CreateMixin, UpdateMixin, DeleteMixin], ModelNamespaceMixin, NoGuard, true)

  const ReadOnlyModelViewSet: Composition :=
    Composition([ListMixin, DetailMixin], ModelNamespaceMixin, NoGuard, true)

  /** The attributes a `ModelViewSet` accepts as constructor keywords: all but
      `permission_check_classes`. */
  lemma ModelViewSetAttributes()
    ensures DeclaredKeys(ModelViewSet) ==
      {"namespace", "mixin_classes", "model", "queryset", "paginate_by", "initial", "form_class", "fields", "prefix"}
    ensures HasSerializeMixin(ModelViewSet)
  {
  }

  /** The read-only viewset has no editing attributes either. */
  lemma ReadOnlyModelViewSetAttributes()
    ensures DeclaredKeys(ReadOnlyModelViewSet) == {"namespace", "mixin_classes", "model", "queryset", "paginate_by"}
    ensures HasSerializeMixin(ReadOnlyModelViewSet)
  {
  }

  /** A `ModelViewSet` builds its routes unless it has neither `fields` nor a
      model, in which case the add route raises. */
  lemma ModelViewSetBuilds(attrs: map<string, Value>)
    requires Configured(ModelViewSet, attrs)
    ensures CollectUrls(ModelViewSet, attrs, ModelViewSet.crud, []).Ok? <==>
      Truthy(attrs["fields"]) || ModelOf(attrs).Some?
  {
    var ms := ModelViewSet.crud;
    CollectUrlsSucceeds(ModelViewSet, attrs, ms, []);
    BuildRouteFails(ModelViewSet, attrs, CreateMixin);
    forall m | m in ms
      ensures BuildRoute(ModelViewSet, attrs, m).Err? <==>
        m in {CreateMixin, UpdateMixin} && !Truthy(attrs["fields"]) && ModelOf(attrs).None?
    {
      BuildRouteFails(ModelViewSet, attrs, m);
    }
  }

  /** The route names of the two mixin lists, last mixin first. */
  lemma CrudRouteNames()
    ensures ReversedRouteNames(ModelViewSet.crud) == ["delete", "edit", "add", "detail", "list"]
    ensures ReversedRouteNames(ReadOnlyModelViewSet.crud) == ["detail", "list"]
  {
    var ms := ModelViewSet.crud;
    var names := ReversedRouteNames(ms);
    assert names[0] == RouteName(ms[4]) && names[1] == RouteName(ms[3]) && names[2] == RouteName(ms[2]);
    assert names[3] == RouteName(ms[1]) && names[4] == RouteName(ms[0]);
    var ro := ReversedRouteNames(ReadOnlyModelViewSet.crud);
    assert ro[0] == RouteName(ReadOnlyModelViewSet.crud[1]) && ro[1] == RouteName(ReadOnlyModelViewSet.crud[0]);
  }

  /** The five routes of a `ModelViewSet`, delete first and list last. */
  lemma ModelViewSetRoutes(attrs: map<string, Value>)
    requires Configured(ModelViewSet, attrs)
    requires CollectUrls(ModelViewSet, attrs, ModelViewSet.crud, []).Ok?
    ensures RouteNames(CollectUrls(ModelViewSet, attrs, ModelViewSet.crud, []).value) == ["delete", "edit", "add", "detail", "list"]
  {
    var ms := ModelViewSet.crud;
    CollectUrlsNames(ModelViewSet, attrs, ms, []);
    CrudRouteNames();
    assert RouteNames([]) == [];
  }

  /** A `ReadOnlyModelViewSet` always builds exactly the detail and list routes. */
  lemma ReadOnlyModelViewSetRoutes(attrs: map<string, Value>)
    requires Configured(ReadOnlyModelViewSet, attrs)
    ensures CollectUrls(ReadOnlyModelViewSet, attrs, ReadOnlyModelViewSet.crud, []).Ok?
    ensures RouteNames(CollectUrls(ReadOnlyModelViewSet, attrs, ReadOnlyModelViewSet.crud, []).value) == ["detail", "list"]
  {
    var ms := ReadOnlyModelViewSet.crud;
    forall m | m in ms ensures BuildRoute(ReadOnlyModelViewSet, attrs, m).Ok? {
      BuildRouteFails(ReadOnlyModelViewSet, attrs, m);
    }
    CollectUrlsSucceeds(ReadOnlyModelViewSet, attrs, ms, []);
    CollectUrlsNames(ReadOnlyModelViewSet, attrs, ms, []);
    CrudRouteNames();
  }

  /** Without a guard, the only mixin is `GenericViewMixin`, which every view
      already derives from, so the composed view lists the view class alone;
      as written, `make_mixin` raises TypeError for that one mixin instead. */
  lemma GenericViewsUnguarded(kind: ViewKind)
    ensures WrapView(ModelViewSet.guard, ViewClassOf(kind)).1.bases == [ViewClassOf(kind)]
    ensures WrapViewAsWritten(ModelViewSet.guard, ViewClassOf(kind)) ==
      Err(TypeError("type() argument 2 must be tuple, not itertools.chain"))
  {
    WrapViewBases(NoGuard, kind);
    WrapViewAsWrittenRaises(NoGuard, ViewClassOf(kind));
  }

  /** As written, neither ready-made viewset can build its URLs, whatever its
      attributes: the first route's `wrap_view` raises TypeError. */
  lemma GenericUrlsAsWritten(attrs: map<string, Value>)
    ensures Configured(ModelViewSet, attrs) ==>
      CollectUrlsAsWritten(ModelViewSet, attrs, ModelViewSet.crud, []) ==
        Err(TypeError("type() argument 2 must be tuple, not itertools.chain"))
    ensures Configured(ReadOnlyModelViewSet, attrs) ==>
      CollectUrlsAsWritten(ReadOnlyModelViewSet, attrs, ReadOnlyModelViewSet.crud, []) ==
        Err(TypeError("type() argument 2 must be tuple, not itertools.chain"))
  {
    if Configured(ModelViewSet, attrs) {
      CollectUrlsAsWrittenRaises(ModelViewSet, attrs, ModelViewSet.crud, []);
    }
    if Configured(ReadOnlyModelViewSet, attrs) {
      CollectUrlsAsWrittenRaises(ReadOnlyModelViewSet, attrs, ReadOnlyModelViewSet.crud, []);
    }
  }

  /** A viewset whose namespace is `ns` reverses every name `n` to `ns:n`. */
  lemma ReversalUnderNamespace(viewset: ViewSet, ns: string)
    requires viewset.Valid() && viewset.comp.namespacing != NoNamespace
    requires viewset.Namespace() == Some(ns)
    ensures forall n :: viewset.ReversedName(n) == ns + ":" + n
  {
    forall n ensures viewset.ReversedName(n) == ns + ":" + n {
      QualifiedNameSpec(Some(ns), n);
    }
  }

  /** The entries of a pattern list carry the names of the routes they hold. */
  lemma PatternsNamed(rs: seq<Route>, names: seq<string>)
    requires RouteNames(rs) == names
    ensures |Patterns(rs)| == |names|
    ensures forall i :: 0 <= i < |names| ==> Patterns(rs)[i].Pattern? && Patterns(rs)[i].route.name == names[i]
  {
  }

  /** Before its first `get_namespace()`, a viewset with a model and no explicit
      namespace answers the model's dashed class name. */
  lemma NamespaceFromModel(viewset: ViewSet, meta: ModelMeta)
    requires viewset.Valid() && viewset.comp.namespacing == ModelNamespaceMixin
    requires ModelOf(viewset.attrs) == Some(meta) && NamespaceAttr(viewset.attrs).None?
    requires viewset.namespaceMemo.None?
    ensures viewset.Namespace() == Some(viewset.camelcaseToDash(meta.className))
  {
  }

  /** The attributes of a `ModelViewSet` built with only a `model` keyword: that
      model and no explicit namespace. */
  lemma ModelKeywordAttributes(meta: ModelMeta)
    ensures var kwargs := map["model" := ModelClass(meta)];
      && WellTyped(kwargs) && kwargs.Keys <= DeclaredKeys(ModelViewSet)
      && ModelOf(ClassDefaults(ModelViewSet) + kwargs) == Some(meta)
      && NamespaceAttr(ClassDefaults(ModelViewSet) + kwargs).None?
  {
    var kwargs := map["model" := ModelClass(meta)];
    assert kwargs.Keys == {"model"};
    assert "namespace" in DeclaredKeys(ModelViewSet);
  }

  /** `ModelViewSet(model=...)`: a `ModelViewSet` built with the model passed
      as its only constructor keyword. */
  method NewModelViewSet(meta: ModelMeta, dash: string -> string) returns (viewset: ViewSet)
    ensures fresh(viewset) && viewset.Valid()
    ensures viewset.comp == ModelViewSet && viewset.camelcaseToDash == dash
    ensures ModelOf(viewset.attrs) == Some(meta) && NamespaceAttr(viewset.attrs).None?
    ensures viewset.namespaceMemo.None? && viewset.urlsMemo.None?
    ensures viewset.Namespace() == Some(dash(meta.className))
  {
    viewset := new ViewSet(ModelViewSet, dash);
    ModelKeywordAttributes(meta);
    var outcome := viewset.Init(map["model" := ModelClass(meta)]);
    NamespaceFromModel(viewset, meta);
  }

  /** What `get_urls()` answers for a `ModelViewSet` with a model: the five
      routes, delete first and list last, under the viewset's namespace. */
  lemma ModelViewSetUrls(viewset: ViewSet, meta: ModelMeta)
    requires viewset.Valid() && viewset.comp == ModelViewSet
    requires ModelOf(viewset.attrs) == Some(meta)
    ensures viewset.UrlsValue().Ok?
    ensures viewset.UrlsValue().value.namespace == viewset.Namespace()
    ensures |viewset.UrlsValue().value.entries| == 5
    ensures forall i :: 0 <= i < 5 ==>
      viewset.UrlsValue().value.entries[i].Pattern? &&
      viewset.UrlsValue().value.entries[i].route.name == ["delete", "edit", "add", "detail", "list"][i]
  {
    ModelViewSetBuilds(viewset.attrs);
    ModelViewSetRoutes(viewset.attrs);
    PatternsNamed(viewset.Collected().value, ["delete", "edit", "add", "detail", "list"]);
  }

  /** `SomeViewset().urls` for such a subclass: the five routes, under the
      model's dashed class name, which stays the viewset's namespace. */
  method MountModelViewSet(meta: ModelMeta, dash: string -> string) returns (viewset: ViewSet, urls: Result<UrlConf>)
    ensures fresh(viewset) && viewset.Valid() && viewset.comp == ModelViewSet
    ensures urls.Ok? && viewset.urlsMemo == Some(urls.value)
    ensures urls.value.namespace == Some(dash(meta.className))
    ensures |urls.value.entries| == 5
    ensures forall i :: 0 <= i < 5 ==> urls.value.entries[i].Pattern?
    ensures forall i :: 0 <= i < 5 ==> urls.value.entries[i].route.name == ["delete", "edit", "add", "detail", "list"][i]
    ensures viewset.Namespace() == Some(dash(meta.className))
  {
    viewset := NewModelViewSet(meta, dash);
    ModelViewSetUrls(viewset, meta);
    ghost var expected := viewset.UrlsValue();
    urls := viewset.Urls();
    assert urls == expected;
  }
}

=== FILE: helpers.dfy ===
/** viewsets/helpers.py: `make_mixin` builds a new class from a view class and
    a list of mixin classes. Classes are name tokens with their direct bases and
    their class attributes. */
module Helpers {
  import opened Records

  /** A class: its `__name__`, its bases in declaration order, and the class
      attributes it was created with. */
  datatype ViewClass = ViewClass(name: string, bases: seq<ViewClass>, attrs: map<string, string>)

  /** A class that is declared with no bases of interest here. */
  function Token(name: string): ViewClass
  {
    ViewClass(name, [], map[])
  }

  /** `issubclass(c, d)`: `c` is `d` or derives from it through its bases. */
  predicate IsSubclass(c: ViewClass, d: ViewClass)
    decreases c
  {
    c == d || exists i :: 0 <= i < |c.bases| && IsSubclass(c.bases[i], d)
  }

  lemma {:induction false} IsSubclassTransitive(a: ViewClass, b: ViewClass, c: ViewClass)
    requires IsSubclass(a, b) && IsSubclass(b, c)
    ensures IsSubclass(a, c)
    decreases a
  {
    if a != b {
      var i :| 0 <= i < |a.bases| && IsSubclass(a.bases[i], b);
      IsSubclassTransitive(a.bases[i], b, c);
    }
  }

  /** A base list Python's `type()` accepts as far as class order goes: no base
      occurs twice ("duplicate base class") and no base comes before one of its
      own subclasses (no consistent method resolution order exists then). */
  predicate BasesAccepted(bases: seq<ViewClass>)
  {
    forall i, j :: 0 <= i < j < |bases| ==> !IsSubclass(bases[j], bases[i])
  }

  // ---------------------------------------------------------------------------
  // make_mixin as written

  /** The base list that helpers.py:9 assembles: the mixins, then the view class. */
  function WrittenBases(viewClass: ViewClass, mixins: seq<ViewClass>): seq<ViewClass>
  {
    mixins + [viewClass]
  }

  /** `make_mixin` as written: with mixins it calls `type()` with an
      `itertools.chain` where `type()` demands a tuple of bases, which raises
      TypeError; without mixins it returns the view class. */
  function MakeMixinAsWritten(viewClass: ViewClass, mixins: seq<ViewClass>, attrs: map<string, string>): Result<ViewClass>
  {
    if |mixins| > 0 then Err(TypeError("type() argument 2 must be tuple, not itertools.chain"))
    else Ok(viewClass)
  }

  /** As written, `make_mixin` raises for every non-empty mixin list, and where it
      does answer it agrees with the corrected composer. */
  lemma MakeMixinAsWrittenRaises(viewClass: ViewClass, mixins: seq<ViewClass>, attrs: map<string, string>)
    ensures MakeMixinAsWritten(viewClass, mixins, attrs).Err? <==> |mixins| > 0
    ensures MakeMixinAsWritten(viewClass, mixins, attrs).Err? ==>
      MakeMixinAsWritten(viewClass, mixins, attrs).error.TypeError?
    ensures MakeMixinAsWritten(viewClass, mixins, attrs).Ok? ==>
      MakeMixinAsWritten(viewClass, mixins, attrs).value == MakeMixin(viewClass, mixins, attrs)
  {
  }

  // ---------------------------------------------------------------------------
  // make_mixin as intended

  /** The mixins the composed class lists in front of the view class: each in the
      order given, once, and only when the view class does not already derive
      from it. */
  function NewMixins(viewClass: ViewClass, mixins: seq<ViewClass>): seq<ViewClass>
    decreases |mixins|
  {
    if mixins == [] then []
    else
      var kept := NewMixins(viewClass, mixins[..|mixins| - 1]);
      var m := mixins[|mixins| - 1];
      if IsSubclass(viewClass, m) || m in kept then kept else kept + [m]
  }

  /** `make_mixin(view_class, *mixin_classes, **attrs)` with a tuple of bases and
      without the mixins that would repeat or that the view class already has. */
  function MakeMixin(viewClass: ViewClass, mixins: seq<ViewClass>, attrs: map<string, string>): ViewClass
  {
    if |mixins| > 0 then ViewClass(viewClass.name, NewMixins(viewClass, mixins) + [viewClass], attrs)
    else viewClass
  }

  /** A mixin is kept exactly when it was passed and the view class does not derive from it. */
  lemma {:induction false} NewMixinsMembers(viewClass: ViewClass, mixins: seq<ViewClass>)
    ensures forall m :: m in NewMixins(viewClass, mixins) <==> m in mixins && !IsSubclass(viewClass, m)
    decreases |mixins|
  {
    if mixins != [] {
      var init := mixins[..|mixins| - 1];
      NewMixinsMembers(viewClass, init);
      assert mixins == init + [mixins[|mixins| - 1]];
    }
  }

  /** No mixin is kept twice. */
  lemma {:induction false} NewMixinsDistinct(viewClass: ViewClass, mixins: seq<ViewClass>)
    ensures forall i, j :: 0 <= i < j < |NewMixins(viewClass, mixins)| ==>
      NewMixins(viewClass, mixins)[i] != NewMixins(viewClass, mixins)[j]
    decreases |mixins|
  {
    if mixins != [] {
      var init := mixins[..|mixins| - 1];
      NewMixinsDistinct(viewClass, init);
      var kept := NewMixins(viewClass, init);
      var m := mixins[|mixins| - 1];
      if !(IsSubclass(viewClass, m) || m in kept) {
        var r := kept + [m];
        forall i, j | 0 <= i < j < |r| ensures r[i] != r[j] {
          assert r[i] == kept[i] && kept[i] in kept;
          if j < |kept| {
            assert r[j] == kept[j];
          }
        }
        assert NewMixins(viewClass, mixins) == r;
      } else {
        assert NewMixins(viewClass, mixins) == kept;
      }
    }
  }

  /** The mixins are distinct and the view class derives from none of them. */
  predicate AllNew(viewClass: ViewClass, mixins: seq<ViewClass>)
  {
    && (forall i, j :: 0 <= i < j < |mixins| ==> mixins[i] != mixins[j])
    && (forall m :: m in mixins ==> !IsSubclass(viewClass, m))
  }

  /** Distinct mixins that the view class does not derive from are all kept, in
      the order given. */
  lemma {:induction false} NewMixinsAllKept(viewClass: ViewClass, mixins: seq<ViewClass>)
    requires AllNew(viewClass, mixins)
    ensures NewMixins(viewClass, mixins) == mixins
    decreases |mixins|
  {
    if mixins != [] {
      var init := mixins[..|mixins| - 1];
      var m := mixins[|mixins| - 1];
      assert forall x :: x in init ==> x in mixins;
      NewMixinsAllKept(viewClass, init);
      assert m !in init by {
        forall i | 0 <= i < |init| ensures init[i] != m {
          assert init[i] == mixins[i];
        }
      }
      assert init + [m] == mixins;
    }
  }

  /** With mixins, the new class keeps the view class's name, lists the kept
      mixins in front of the view class, and carries the given attributes; when
      the mixins are distinct and new to the view class, the bases are exactly
      the mixins, in the order given, followed by the view class. */
  lemma MakeMixinShape(viewClass: ViewClass, mixins: seq<ViewClass>, attrs: map<string, string>)
    requires |mixins| > 0
    ensures var c := MakeMixin(viewClass, mixins, attrs);
      && c.name == viewClass.name
      && c.bases[|c.bases| - 1] == viewClass
      && (forall m :: m in c.bases[..|c.bases| - 1] <==> m in mixins && !IsSubclass(viewClass, m))
      && c.attrs == attrs
    ensures AllNew(viewClass, mixins) ==> MakeMixin(viewClass, mixins, attrs).bases == mixins + [viewClass]
  {
    NewMixinsMembers(viewClass, mixins);
    var c := MakeMixin(viewClass, mixins, attrs);
    assert c.bases[..|c.bases| - 1] == NewMixins(viewClass, mixins);
    if AllNew(viewClass, mixins) {
      NewMixinsAllKept(viewClass, mixins);
    }
  }

  /** Without mixins the view class itself comes back and the attributes are dropped. */
  lemma MakeMixinEmpty(viewClass: ViewClass, attrs: map<string, string>)
    ensures MakeMixin(viewClass, [], attrs) == viewClass
  {
  }

  /** When the mixins do not derive from one another, Python accepts the bases
      of the class `make_mixin` creates: nothing repeats and the view class
      follows no class it derives from. */
  lemma MakeMixinBasesAccepted(viewClass: ViewClass, mixins: seq<ViewClass>, attrs: map<string, string>)
    requires |mixins| > 0
    requires forall a, b :: a in mixins && b in mixins && a != b ==> !IsSubclass(a, b)
    ensures BasesAccepted(MakeMixin(viewClass, mixins, attrs).bases)
  {
    var kept := NewMixins(viewClass, mixins);
    var bases := kept + [viewClass];
    NewMixinsMembers(viewClass, mixins);
    NewMixinsDistinct(viewClass, mixins);
    forall i, j | 0 <= i < j < |bases| ensures !IsSubclass(bases[j], bases[i]) {
      assert bases[i] == kept[i] && kept[i] in kept;
      if j < |kept| {
        assert bases[j] == kept[j] && kept[j] in kept;
        assert kept[i] != kept[j];
      } else {
        assert bases[j] == viewClass;
      }
    }
  }

  /** The composed class derives from exactly what the view class or one of the
      mixins derives from, besides itself: leaving out the mixins the view
      class already has loses no ancestor. */
  lemma MakeMixinSubclasses(viewClass: ViewClass, mixins: seq<ViewClass>, attrs: map<string, string>, d: ViewClass)
    ensures IsSubclass(MakeMixin(viewClass, mixins, attrs), d) <==>
      MakeMixin(viewClass, mixins, attrs) == d || IsSubclass(viewClass, d) || exists m :: m in mixins && IsSubclass(m, d)
  {
    var c := MakeMixin(viewClass, mixins, attrs);
    if |mixins| > 0 {
      var kept := NewMixins(viewClass, mixins);
      NewMixinsMembers(viewClass, mixins);
      assert c.bases == kept + [viewClass];
      if IsSubclass(c, d) && c != d {
        var i :| 0 <= i < |c.bases| && IsSubclass(c.bases[i], d);
        if i < |kept| {
          assert c.bases[i] in kept;
        }
      }
      if IsSubclass(viewClass, d) {
        assert c.bases[|kept|] == viewClass;
      }
      if exists m :: m in mixins && IsSubclass(m, d) {
        var m :| m in mixins && IsSubclass(m, d);
        if IsSubclass(viewClass, m) {
          IsSubclassTransitive(viewClass, m, d);
          assert c.bases[|kept|] == viewClass;
        } else {
          assert m in kept;
          var i :| 0 <= i < |kept| && kept[i] == m;
          assert c.bases[i] == m;
        }
      }
    }
  }
}

=== FILE: mixins.dfy ===
/** The parts of viewsets/mixins.py and viewsets/viewset.py that work on a
    viewset's attribute dictionary rather than on the instance: the class
    attributes a composed viewset declares, the keyword loop of the
    constructor, the view each CRUD mixin builds, the `super()` chain of
    `collect_urls`, the mixins wrapped around a view, the namespace a viewset
    derives, and the walk that turns an object's fields into (title, value)
    pairs. The instance itself (its attributes, the memoised namespace and URL
    set, the permission loops) is class ViewSets.ViewSet. */
module Mixins {
  import opened Records
  import opened Permissions
  import opened Helpers
  import opened Views

  /** A value held by a viewset attribute. */
  datatype Value =
    | NoneV
    | Str(s: string)
    | Int(i: int)
    | Names(names: seq<string>)
    | Dict(entries: map<string, Datum>)
    | ModelClass(meta: ModelMeta)
    | CheckerClasses(checkers: seq<Checker>)
    | Classes(classes: seq<ViewClass>)
    | Opaque(token: string)
    | ViewSetSelf

  /** Python truthiness of an attribute value. */
  predicate Truthy(v: Value)
  {
    match v
    case NoneV => false
    case Str(s) => s != ""
    case Int(i) => i != 0
    case Names(ns) => ns != []
    case Dict(m) => m != map[]
    case CheckerClasses(cs) => cs != []
    case Classes(cs) => cs != []
    case _ => true
  }

  // ---------------------------------------------------------------------------
  // Composed viewset classes

  datatype CrudMixin = ListMixin | DetailMixin | CreateMixin | UpdateMixin | DeleteMixin
  datatype NamespaceKind = NoNamespace | NamespaceMixin | ModelNamespaceMixin
  datatype GuardKind = NoGuard | GuardMixin | PermissionsMixin

  /** A viewset class: its CRUD mixins in method-resolution order, the namespace
      mixin and the guard mixin among its bases, and whether the older
      `viewsets.BaseViewSet` is among its bases too. */
  datatype Composition = Composition(crud: seq<CrudMixin>, namespacing: NamespaceKind, guard: GuardKind, legacyBase: bool)

  /** Whether `ModelMixin` (and with it the `model` attribute) is in the class's ancestry. */
  predicate HasModelMixin(comp: Composition)
  {
    |comp.crud| > 0 || comp.namespacing == ModelNamespaceMixin || comp.guard == PermissionsMixin
  }

  /** Whether `ModelSerializeMixin` is in the class's ancestry. */
  predicate HasSerializeMixin(comp: Composition)
  {
    ListMixin in comp.crud || DetailMixin in comp.crud || DeleteMixin in comp.crud
  }

  /** Every data attribute some viewset class of the package declares. */
  const AttributeNames: set<string> :=
    {"namespace", "mixin_classes", "model", "permission_check_classes", "queryset",
     "paginate_by", "initial", "form_class", "fields", "prefix"}

  /** Whether the composed class declares the attribute: `namespace` and
      `mixin_classes` come from the older base class, `namespace` also from the
      namespace mixins, `model` from every mixin built on `ModelMixin`, and the
      rest from the CRUD mixins and `PermissionsMixin`. */
  predicate Declares(comp: Composition, key: string)
  {
    if key == "namespace" then comp.legacyBase || comp.namespacing != NoNamespace
    else if key == "mixin_classes" then comp.legacyBase
    else if key == "model" then HasModelMixin(comp)
    else if key == "permission_check_classes" then comp.guard == PermissionsMixin
    else if key == "queryset" then |comp.crud| > 0
    else if key == "paginate_by" then ListMixin in comp.crud
    else if key in {"initial", "form_class", "fields", "prefix"} then CreateMixin in comp.crud || UpdateMixin in comp.crud
    else false
  }

  /** The names of the data attributes the composed class declares. */
  function DeclaredKeys(comp: Composition): (keys: set<string>)
    ensures forall k :: k in keys <==> k in AttributeNames && Declares(comp, k)
  {
    set k | k in AttributeNames && Declares(comp, k)
  }

  /** The class-level value of a declared attribute; where two mixins declare the
      same name they agree on its value. */
  function DefaultValue(key: string): Value
  {
    if key == "paginate_by" then Int(100)
    else if key == "initial" then Dict(map[])
    else if key == "mixin_classes" then Classes([GenericViewMixin])
    else if key == "permission_check_classes" then CheckerClasses([])
    else NoneV
  }

  /** The data attributes the composed class declares, with their class-level values. */
  function ClassDefaults(comp: Composition): (defaults: map<string, Value>)
    ensures defaults.Keys == DeclaredKeys(comp)
  {
    map k | k in DeclaredKeys(comp) :: DefaultValue(k)
  }

  /** The types the modelled code expects of the attributes it reads. */
  predicate TypedFor(key: string, v: Value)
  {
    if key == "model" then v.NoneV? || v.ModelClass?
    else if key == "namespace" then v.NoneV? || v.Str?
    else if key == "fields" then v.NoneV? || v.Names?
    else if key == "permission_check_classes" then v.CheckerClasses?
    else true
  }

  predicate WellTyped(attrs: map<string, Value>)
  {
    forall k :: k in attrs ==> TypedFor(k, attrs[k])
  }

  /** An attribute dictionary of a viewset of class `comp`: the declared keys, well typed. */
  predicate Configured(comp: Composition, attrs: map<string, Value>)
  {
    attrs.Keys == DeclaredKeys(comp) && WellTyped(attrs)
  }

  /** The keyword loop of `BaseViewSet.__init__`: every keyword must name an
      existing attribute, which it then overrides. The keywords are visited in
      no particular order, so when one is unknown an arbitrary part of the
      others has already been set. */
  method ApplyKeywords(attrs: map<string, Value>, kwargs: map<string, Value>)
    returns (outcome: Outcome, updated: map<string, Value>)
    ensures updated.Keys == attrs.Keys
    ensures outcome == Proceed <==> kwargs.Keys <= attrs.Keys
    ensures outcome == Proceed ==> updated == attrs + kwargs
    ensures outcome.Raised? ==> outcome.error == AssertionError("Pass unknown parameter")
    ensures forall k :: k in updated ==> updated[k] == attrs[k] || (k in kwargs && updated[k] == kwargs[k])
  {
    updated := attrs;
    var pending := kwargs.Keys;
    while pending != {}
      invariant pending <= kwargs.Keys
      invariant updated.Keys == attrs.Keys
      invariant kwargs.Keys - pending <= attrs.Keys
      invariant forall k :: k in updated ==> updated[k] == if k in kwargs && k !in pending then kwargs[k] else attrs[k]
      decreases pending
    {
      var key :| key in pending;
      if key !in updated {
        return Raised(AssertionError("Pass unknown parameter")), updated;
      }
      updated := updated[key := kwargs[key]];
      pending := pending - {key};
    }
    KeywordsApplied(attrs, kwargs, updated);
    outcome := Proceed;
  }

  /** Overriding well-typed attributes with well-typed keywords keeps them well typed. */
  lemma KeywordsKeepTypes(before: map<string, Value>, kwargs: map<string, Value>, after: map<string, Value>)
    requires WellTyped(before) && WellTyped(kwargs) && after.Keys == before.Keys
    requires forall k :: k in after ==> after[k] == before[k] || (k in kwargs && after[k] == kwargs[k])
    ensures WellTyped(after)
  {
  }

  /** Once every keyword has overridden its attribute, the attributes are the
      old ones updated by the keywords. */
  lemma KeywordsApplied(before: map<string, Value>, kwargs: map<string, Value>, after: map<string, Value>)
    requires after.Keys == before.Keys && kwargs.Keys <= before.Keys
    requires forall k :: k in after ==> after[k] == if k in kwargs then kwargs[k] else before[k]
    ensures after == before + kwargs
  {
  }

  lemma DefaultsConfigured(comp: Composition)
    ensures Configured(comp, ClassDefaults(comp))
  {
  }

  /** `self.model`, read as an optional model class. */
  function ModelOf(attrs: map<string, Value>): Option<ModelMeta>
    requires "model" in attrs
  {
    if attrs["model"].ModelClass? then Some(attrs["model"].meta) else None
  }

  // ---------------------------------------------------------------------------
  // ModelMixin.get_read_write_fields

  /** The entries that are `Field` instances, in their order. */
  function ConcreteFields(fs: seq<Field>): (cs: seq<Field>)
    ensures |cs| <= |fs|
  {
    if fs == [] then []
    else (if fs[0].isConcreteField then [fs[0]] else []) + ConcreteFields(fs[1..])
  }

  /** The kept entries are exactly the concrete fields. */
  lemma {:induction false} ConcreteFieldsMembers(fs: seq<Field>)
    ensures forall f :: f in ConcreteFields(fs) <==> f in fs && f.isConcreteField
    decreases |fs|
  {
    if fs != [] {
      ConcreteFieldsMembers(fs[1..]);
      assert forall f :: f in fs <==> f == fs[0] || f in fs[1..];
    }
  }

  /** Filtering commutes with concatenation, so the kept fields stay in their order. */
  lemma {:induction false} ConcreteFieldsAppend(a: seq<Field>, b: seq<Field>)
    ensures ConcreteFields(a + b) == ConcreteFields(a) + ConcreteFields(b)
    decreases |a|
  {
    if a == [] {
      assert a + b == b;
    } else {
      assert (a + b)[0] == a[0];
      assert (a + b)[1..] == a[1..] + b;
      ConcreteFieldsAppend(a[1..], b);
    }
  }

  function FieldNames(fs: seq<Field>): (names: seq<string>)
    ensures |names| == |fs|
    ensures forall i :: 0 <= i < |fs| ==> names[i] == fs[i].name
  {
    if fs == [] then [] else [fs[0].name] + FieldNames(fs[1..])
  }

  /** `get_read_write_fields`: the names of the model's own concrete fields. */
  function ReadWriteFields(meta: ModelMeta): seq<string>
  {
    FieldNames(ConcreteFields(meta.ownFields))
  }

  /** The read-write fields are the names of the model's own concrete fields. */
  lemma ReadWriteFieldsMembers(meta: ModelMeta)
    ensures forall n :: n in ReadWriteFields(meta) <==> exists g :: g in meta.ownFields && g.isConcreteField && g.name == n
  {
    var rw := ReadWriteFields(meta);
    var cs := ConcreteFields(meta.ownFields);
    ConcreteFieldsMembers(meta.ownFields);
    forall n | n in rw ensures exists g :: g in meta.ownFields && g.isConcreteField && g.name == n {
      var i :| 0 <= i < |rw| && rw[i] == n;
      assert cs[i] in cs;
    }
    forall n | exists g :: g in meta.ownFields && g.isConcreteField && g.name == n ensures n in rw {
      var g :| g in meta.ownFields && g.isConcreteField && g.name == n;
      assert g in cs;
      var i :| 0 <= i < |cs| && cs[i] == g;
      assert rw[i] == n;
    }
  }

  /** A field declared last comes last among the read-write fields, when it is concrete. */
  lemma ReadWriteFieldsAppend(meta: ModelMeta, f: Field)
    ensures ReadWriteFields(meta.(ownFields := meta.ownFields + [f])) ==
      ReadWriteFields(meta) + (if f.isConcreteField then [f.name] else [])
  {
    var cs := ConcreteFields(meta.ownFields);
    ConcreteFieldsAppend(meta.ownFields, [f]);
    assert ConcreteFields([f]) == (if f.isConcreteField then [f] else []) by {
      assert [f][1..] == [];
    }
    FieldNamesAppend(cs, ConcreteFields([f]));
  }

  lemma FieldNamesAppend(a: seq<Field>, b: seq<Field>)
    ensures FieldNames(a + b) == FieldNames(a) + FieldNames(b)
  {
  }

  // ---------------------------------------------------------------------------
  // (title, value) pairs of an object's fields

  /** `(field.verbose_name, getattr(obj, field.name))` for each field in turn; the
      first field the object has no attribute for raises. */
  function FieldPairs(fs: seq<Field>, obj: Instance): Result<seq<Pair>>
    decreases |fs|
  {
    if fs == [] then Ok([])
    else
      match FieldPairs(fs[..|fs| - 1], obj)
      case Err(e) => Err(e)
      case Ok(ps) =>
        var f := fs[|fs| - 1];
        if f.name in obj.attrs then Ok(ps + [(f.verboseName, obj.attrs[f.name])])
        else Err(AttributeError(f.name))
  }

  /** The pairs exist exactly when the object has every field's attribute, and
      then the k-th pair is the k-th field's title and value. */
  lemma {:induction false} FieldPairsSpec(fs: seq<Field>, obj: Instance)
    ensures FieldPairs(fs, obj).Ok? <==> forall f :: f in fs ==> f.name in obj.attrs
    ensures FieldPairs(fs, obj).Ok? ==>
      var ps := FieldPairs(fs, obj).value;
      |ps| == |fs| && forall k :: 0 <= k < |fs| ==> ps[k] == (fs[k].verboseName, obj.attrs[fs[k].name])
    ensures FieldPairs(fs, obj).Err? ==>
      exists f :: f in fs && f.name !in obj.attrs && FieldPairs(fs, obj).error == AttributeError(f.name)
    decreases |fs|
  {
    if fs != [] {
      var init := fs[..|fs| - 1];
      var f := fs[|fs| - 1];
      FieldPairsSpec(init, obj);
      assert fs == init + [f];
      assert forall g :: g in fs <==> g in init || g == f;
    }
  }

  /** Once a prefix of the fields raises, the whole sequence raises the same error. */
  lemma {:induction false} FieldPairsErrPrefix(a: seq<Field>, b: seq<Field>, obj: Instance)
    requires FieldPairs(a, obj).Err?
    ensures FieldPairs(a + b, obj) == FieldPairs(a, obj)
    decreases |b|
  {
    if b == [] {
      assert a + b == a;
    } else {
      var init := b[..|b| - 1];
      FieldPairsErrPrefix(a, init, obj);
      assert (a + b)[..|a + b| - 1] == a + init;
    }
  }

  /** One more field extends the concrete prefix by that field when it is concrete. */
  lemma ConcreteFieldsStep(fs: seq<Field>, i: nat)
    requires i < |fs|
    ensures ConcreteFields(fs[..i + 1]) == ConcreteFields(fs[..i]) + (if fs[i].isConcreteField then [fs[i]] else [])
  {
    assert fs[..i + 1] == fs[..i] + [fs[i]];
    ConcreteFieldsAppend(fs[..i], [fs[i]]);
    assert [fs[i]][1..] == [];
  }

  /** Walking one more field appends its pair, or raises for it, unless the walk already raised. */
  lemma FieldPairsSnoc(cs: seq<Field>, f: Field, obj: Instance)
    ensures FieldPairs(cs + [f], obj) ==
      match FieldPairs(cs, obj)
      case Err(e) => Err(e)
      case Ok(ps) => if f.name in obj.attrs then Ok(ps + [(f.verboseName, obj.attrs[f.name])]) else Err(AttributeError(f.name))
  {
    assert (cs + [f])[..|cs + [f]| - 1] == cs;
  }

  /** The walk over the first `i` fields gave `ps`. */
  predicate WalkedTo(fs: seq<Field>, i: nat, obj: Instance, ps: seq<Pair>)
  {
    i <= |fs| && FieldPairs(ConcreteFields(fs[..i]), obj) == Ok(ps)
  }

  lemma WalkedAll(fs: seq<Field>, obj: Instance, ps: seq<Pair>)
    requires WalkedTo(fs, |fs|, obj, ps)
    ensures FieldPairs(ConcreteFields(fs), obj) == Ok(ps)
  {
    assert fs[..|fs|] == fs;
  }

  /** A concrete field the object has extends the pairs of the concrete prefix by its pair. */
  lemma FieldPairsKept(fs: seq<Field>, i: nat, obj: Instance, ps: seq<Pair>)
    requires i < |fs| && fs[i].isConcreteField && fs[i].name in obj.attrs
    requires WalkedTo(fs, i, obj, ps)
    ensures WalkedTo(fs, i + 1, obj, ps + [(fs[i].verboseName, obj.attrs[fs[i].name])])
  {
    ConcreteFieldsStep(fs, i);
    FieldPairsSnoc(ConcreteFields(fs[..i]), fs[i], obj);
  }

  /** A field that is not concrete leaves the walk as it was. */
  lemma FieldPairsSkipped(fs: seq<Field>, i: nat, obj: Instance, ps: seq<Pair>)
    requires i < |fs| && !fs[i].isConcreteField
    requires WalkedTo(fs, i, obj, ps)
    ensures WalkedTo(fs, i + 1, obj, ps)
  {
    ConcreteFieldsStep(fs, i);
    assert ConcreteFields(fs[..i]) + [] == ConcreteFields(fs[..i]);
  }

  /** A concrete field missing from the object makes the whole walk raise for that field. */
  lemma FieldPairsMissing(fs: seq<Field>, i: nat, obj: Instance, ps: seq<Pair>)
    requires i < |fs| && fs[i].isConcreteField && fs[i].name !in obj.attrs
    requires WalkedTo(fs, i, obj, ps)
    ensures FieldPairs(ConcreteFields(fs), obj) == Err(AttributeError(fs[i].name))
  {
    var pre, post := ConcreteFields(fs[..i + 1]), ConcreteFields(fs[i + 1..]);
    assert FieldPairs(pre, obj) == Err(AttributeError(fs[i].name)) by {
      ConcreteFieldsStep(fs, i);
      FieldPairsSnoc(ConcreteFields(fs[..i]), fs[i], obj);
    }
    assert ConcreteFields(fs) == pre + post by {
      ConcreteFieldsAppend(fs[..i + 1], fs[i + 1..]);
      assert fs[..i + 1] + fs[i + 1..] == fs;
    }
    FieldPairsErrPrefix(pre, post, obj);
  }

  /** The loop of `serialize_object`: `serialize_field` on each field in turn,
      skipping those that are not concrete fields and reading the others'
      values off the object. */
  method SerializeFields(fs: seq<Field>, obj: Instance) returns (r: Result<seq<Pair>>)
    ensures r == FieldPairs(ConcreteFields(fs), obj)
  {
    var pairs: seq<Pair> := [];
    var i := 0;
    while i < |fs|
      invariant 0 <= i <= |fs|
      invariant WalkedTo(fs, i, obj, pairs)
    {
      var f := fs[i];
      if f.isConcreteField {
        if f.name !in obj.attrs {
          FieldPairsMissing(fs, i, obj, pairs);
          return Err(AttributeError(f.name));
        }
        FieldPairsKept(fs, i, obj, pairs);
        pairs := pairs + [(f.verboseName, obj.attrs[f.name])];
      } else {
        FieldPairsSkipped(fs, i, obj, pairs);
      }
      i := i + 1;
    }
    WalkedAll(fs, obj, pairs);
    return Ok(pairs);
  }

  /** `serialize_object(obj)` of a viewset whose model is `meta`: the title and
      value of each own concrete field, gathered into an OrderedDict. */
  function Serialized(meta: ModelMeta, obj: Instance): Result<seq<Pair>>
  {
    match FieldPairs(ConcreteFields(meta.ownFields), obj)
    case Err(e) => Err(e)
    case Ok(ps) => Ok(OrderedDictOf(ps))
  }

  /** The OrderedDict of the fields' pairs has each field's title as a key,
      once, and no other key. */
  lemma FieldPairsTitles(fs: seq<Field>, obj: Instance)
    requires FieldPairs(fs, obj).Ok?
    ensures DistinctKeys(OrderedDictOf(FieldPairs(fs, obj).value))
    ensures forall t :: t in KeysOf(OrderedDictOf(FieldPairs(fs, obj).value)) <==>
      exists f :: f in fs && f.verboseName == t
  {
    FieldPairsSpec(fs, obj);
    var ps := FieldPairs(fs, obj).value;
    OrderedDictOfKeys(ps);
    forall t | t in KeysOf(ps) ensures exists f :: f in fs && f.verboseName == t {
      var k :| 0 <= k < |ps| && KeysOf(ps)[k] == t;
      assert fs[k] in fs;
    }
    forall t | exists f :: f in fs && f.verboseName == t ensures t in KeysOf(ps) {
      var f :| f in fs && f.verboseName == t;
      var k :| 0 <= k < |fs| && fs[k] == f;
      assert KeysOf(ps)[k] == t;
    }
  }

  /** No two fields share a `verbose_name`. */
  predicate DistinctTitles(fs: seq<Field>)
  {
    forall i, j :: 0 <= i < j < |fs| ==> fs[i].verboseName != fs[j].verboseName
  }

  /** With distinct titles the OrderedDict is the pairs themselves, in field order. */
  lemma FieldPairsInOrder(fs: seq<Field>, obj: Instance)
    requires FieldPairs(fs, obj).Ok? && DistinctTitles(fs)
    ensures OrderedDictOf(FieldPairs(fs, obj).value) == FieldPairs(fs, obj).value
  {
    FieldPairsSpec(fs, obj);
    OrderedDictOfDistinct(FieldPairs(fs, obj).value);
  }

  /** Serializing succeeds exactly when the object has every own concrete
      field's attribute; its keys are the titles of those fields, each once, and
      with distinct titles it lists every such field's title and value in field
      order. */
  lemma SerializedSpec(meta: ModelMeta, obj: Instance)
    ensures Serialized(meta, obj).Ok? <==>
      forall f :: f in meta.ownFields && f.isConcreteField ==> f.name in obj.attrs
    ensures Serialized(meta, obj).Ok? ==>
      && DistinctKeys(Serialized(meta, obj).value)
      && forall t :: t in KeysOf(Serialized(meta, obj).value) <==>
           exists f :: f in meta.ownFields && f.isConcreteField && f.verboseName == t
    ensures Serialized(meta, obj).Ok? && DistinctKeys(FieldPairs(ConcreteFields(meta.ownFields), obj).value) ==>
      var cs := ConcreteFields(meta.ownFields);
      var d := Serialized(meta, obj).value;
      |d| == |cs| && forall k :: 0 <= k < |cs| ==> cs[k].name in obj.attrs && d[k] == (cs[k].verboseName, obj.attrs[cs[k].name])
  {
    var cs := ConcreteFields(meta.ownFields);
    ConcreteFieldsMembers(meta.ownFields);
    FieldPairsSpec(cs, obj);
    if FieldPairs(cs, obj).Ok? {
      var ps := FieldPairs(cs, obj).value;
      FieldPairsTitles(cs, obj);
      if DistinctKeys(ps) {
        OrderedDictOfDistinct(ps);
      }
    }
  }

  /** Where titles repeat, the OrderedDict keeps the value of the last concrete
      field with that title: the k-th field's pair is in the result when no
      later concrete field shares its title. */
  lemma SerializedLastValue(meta: ModelMeta, obj: Instance, k: nat)
    requires Serialized(meta, obj).Ok?
    requires k < |ConcreteFields(meta.ownFields)|
    requires forall j :: k < j < |ConcreteFields(meta.ownFields)| ==>
      ConcreteFields(meta.ownFields)[j].verboseName != ConcreteFields(meta.ownFields)[k].verboseName
    ensures var f := ConcreteFields(meta.ownFields)[k];
      f.name in obj.attrs && (f.verboseName, obj.attrs[f.name]) in Serialized(meta, obj).value
  {
    var cs := ConcreteFields(meta.ownFields);
    FieldPairsSpec(cs, obj);
    var ps := FieldPairs(cs, obj).value;
    assert cs[k] in cs;
    OrderedDictOfLast(ps, k);
  }

  // ---------------------------------------------------------------------------
  // Views and routes

  /** `view_class.as_view(**kwargs)`. */
  datatype View = View(viewClass: ViewClass, initkwargs: map<string, Value>)

  /** `url(pattern, view, name=name)`. */
  datatype Route = Route(pattern: string, view: View, name: string)

  function RouteName(m: CrudMixin): string
  {
    match m
    case ListMixin => "list"
    case DetailMixin => "detail"
    case CreateMixin => "add"
    case UpdateMixin => "edit"
    case DeleteMixin => "delete"
  }

  function RoutePattern(m: CrudMixin): string
  {
    match m
    case ListMixin => "^$"
    case DetailMixin => "^(?P<pk>\\d+)/$"
    case CreateMixin => "^add/$"
    case UpdateMixin => "^(?P<pk>\\d+)/edit/$"
    case DeleteMixin => "^(?P<pk>\\d+)/delete/$"
  }

  /** `get_list_class()` and the other four: the view class each mixin serves. */
  function KindOf(m: CrudMixin): ViewKind
  {
    match m
    case ListMixin => ListKind
    case DetailMixin => DetailKind
    case CreateMixin => CreateKind
    case UpdateMixin => UpdateKind
    case DeleteMixin => DeleteKind
  }

  /** `get_mixin_classes(view_class)`: `BaseViewSet` gives `(GenericViewMixin,)`;
      `GuardMixin` puts `DispatchViewMixin` in front and, for single-object
      views, `CheckObjectViewMixin` at the end. */
  function GetMixinClasses(guard: GuardKind, viewClass: ViewClass): seq<ViewClass>
  {
    var inherited := [GenericViewMixin];
    if guard == NoGuard then inherited
    else
      var guarded := [DispatchViewMixin] + inherited;
      if IsSubclass(viewClass, SingleObjectMixin) then guarded + [CheckObjectViewMixin] else guarded
  }

  lemma GetMixinClassesSpec(guard: GuardKind, kind: ViewKind)
    ensures guard == NoGuard ==> GetMixinClasses(guard, ViewClassOf(kind)) == [GenericViewMixin]
    ensures guard != NoGuard && kind == ListKind ==>
      GetMixinClasses(guard, ViewClassOf(kind)) == [DispatchViewMixin, GenericViewMixin]
    ensures guard != NoGuard && kind != ListKind ==>
      GetMixinClasses(guard, ViewClassOf(kind)) == [DispatchViewMixin, GenericViewMixin, CheckObjectViewMixin]
  {
    SingleObjectViews(kind);
  }

  /** `wrap_view(view_class)`: the keyword arguments `{'viewset': self}` and the
      view class with the viewset's mixins composed in front of it. */
  function WrapView(guard: GuardKind, viewClass: ViewClass): (map<string, Value>, ViewClass)
  {
    (map["viewset" := ViewSetSelf], MakeMixin(viewClass, GetMixinClasses(guard, viewClass), map[]))
  }

  /** A view class derives from none of the guard's mixins. */
  lemma ViewClassNotGuarded(kind: ViewKind)
    ensures !IsSubclass(ViewClassOf(kind), DispatchViewMixin)
    ensures !IsSubclass(ViewClassOf(kind), CheckObjectViewMixin)
  {
    var c := ViewClassOf(kind);
    var f := FrameworkView(kind);
    assert f.bases == [if kind == ListKind then MultipleObjectMixin else SingleObjectMixin];
    forall d | d in {DispatchViewMixin, CheckObjectViewMixin}
      ensures !IsSubclass(c, d)
    {
      assert !IsSubclass(ContextMixin, d) && !IsSubclass(TemplateResponseMixin, d);
      assert !IsSubclass(SingleObjectMixin, d) && !IsSubclass(MultipleObjectMixin, d);
      assert !IsSubclass(f, d) by {
        assert forall i :: 0 <= i < |f.bases| ==> f.bases[i] in {SingleObjectMixin, MultipleObjectMixin};
      }
      assert !IsSubclass(TemplateMixin, d) by {
        assert forall i :: 0 <= i < |TemplateMixin.bases| ==> TemplateMixin.bases[i] in {TemplateResponseMixin, ContextMixin};
      }
      assert !IsSubclass(GenericViewMixin, d) by {
        assert forall i :: 0 <= i < |GenericViewMixin.bases| ==> GenericViewMixin.bases[i] == ContextMixin;
      }
      assert forall i :: 0 <= i < |c.bases| ==> c.bases[i] in {TemplateMixin, GenericViewMixin, f};
    }
  }

  /** The bases of the wrapped view: the guard's `DispatchViewMixin`, then its
      `CheckObjectViewMixin` for a single-object view, then the view class;
      `GenericViewMixin`, which every view already derives from, is not listed
      again, so without a guard the view class is the only base. */
  lemma WrapViewBases(guard: GuardKind, kind: ViewKind)
    ensures guard == NoGuard ==> WrapView(guard, ViewClassOf(kind)).1.bases == [ViewClassOf(kind)]
    ensures guard != NoGuard && kind == ListKind ==>
      WrapView(guard, ViewClassOf(kind)).1.bases == [DispatchViewMixin, ViewClassOf(kind)]
    ensures guard != NoGuard && kind != ListKind ==>
      WrapView(guard, ViewClassOf(kind)).1.bases == [DispatchViewMixin, CheckObjectViewMixin, ViewClassOf(kind)]
  {
    var v := ViewClassOf(kind);
    var ms := GetMixinClasses(guard, v);
    GetMixinClassesSpec(guard, kind);
    ViewClassNotGuarded(kind);
    assert IsSubclass(v, GenericViewMixin) by {
      assert v.bases[1] == GenericViewMixin;
    }
    if guard == NoGuard {
      assert ms[..0] == [];
      assert NewMixins(v, ms) == [];
    } else if kind == ListKind {
      assert ms[..1] == [DispatchViewMixin] && ms[..1][..0] == [];
      assert NewMixins(v, ms[..1]) == [DispatchViewMixin];
      assert NewMixins(v, ms) == [DispatchViewMixin];
    } else {
      assert ms[..2] == [DispatchViewMixin, GenericViewMixin];
      assert ms[..2][..1] == [DispatchViewMixin] && ms[..2][..1][..0] == [];
      assert NewMixins(v, ms[..2][..1]) == [DispatchViewMixin];
      assert NewMixins(v, ms[..2]) == [DispatchViewMixin];
      assert CheckObjectViewMixin != DispatchViewMixin;
      assert NewMixins(v, ms) == [DispatchViewMixin, CheckObjectViewMixin];
    }
  }

  /** The wrapped view keeps the view's name, derives from the view class and
      from every mixin `get_mixin_classes` asks for, and has bases Python
      accepts. */
  lemma WrapViewSpec(guard: GuardKind, kind: ViewKind)
    ensures WrapView(guard, ViewClassOf(kind)).0 == map["viewset" := ViewSetSelf]
    ensures var c := WrapView(guard, ViewClassOf(kind)).1;
      && c.name == ViewClassOf(kind).name
      && IsSubclass(c, ViewClassOf(kind))
      && (forall m :: m in GetMixinClasses(guard, ViewClassOf(kind)) ==> IsSubclass(c, m))
      && BasesAccepted(c.bases)
  {
    var v := ViewClassOf(kind);
    var ms := GetMixinClasses(guard, v);
    var c := WrapView(guard, v).1;
    WrapViewBases(guard, kind);
    ViewClassNotGuarded(kind);
    GetMixinClassesSpec(guard, kind);
    assert c.bases[|c.bases| - 1] == v;
    forall m | m in ms ensures IsSubclass(c, m) {
      MakeMixinSubclasses(v, ms, map[], m);
    }
    assert !IsSubclass(CheckObjectViewMixin, DispatchViewMixin);
  }

  // ---------------------------------------------------------------------------
  // wrap_view as written

  /** `get_mixin_classes(view_class)` as written: `GuardMixin` reads
      `views.DispatchViewMixin`, which viewsets/views.py does not define, so a
      guarded viewset raises AttributeError before composing anything. */
  function GetMixinClassesAsWritten(guard: GuardKind, viewClass: ViewClass): Result<seq<ViewClass>>
  {
    if guard == NoGuard then Ok([GenericViewMixin]) else Err(AttributeError("DispatchViewMixin"))
  }

  /** `wrap_view(view_class)` as written: the mixin classes, then `make_mixin`. */
  function WrapViewAsWritten(guard: GuardKind, viewClass: ViewClass): Result<(map<string, Value>, ViewClass)>
  {
    match GetMixinClassesAsWritten(guard, viewClass)
    case Err(e) => Err(e)
    case Ok(ms) =>
      match MakeMixinAsWritten(viewClass, ms, map[])
      case Err(e) => Err(e)
      case Ok(c) => Ok((map["viewset" := ViewSetSelf], c))
  }

  /** The error `wrap_view` raises as written. */
  function WrapError(guard: GuardKind): Error
  {
    if guard == NoGuard then TypeError("type() argument 2 must be tuple, not itertools.chain")
    else AttributeError("DispatchViewMixin")
  }

  /** As written, `wrap_view` never returns: an unguarded viewset's
      `make_mixin` gets the non-empty `(GenericViewMixin,)` and raises
      TypeError, a guarded one fails on the missing `DispatchViewMixin`. */
  lemma WrapViewAsWrittenRaises(guard: GuardKind, viewClass: ViewClass)
    ensures WrapViewAsWritten(guard, viewClass) == Err(WrapError(guard))
  {
  }

  /** Even with a tuple of bases, the base list `make_mixin` assembles is one
      Python rejects: every view already derives from `GenericViewMixin`, which
      is listed in front of it. */
  lemma TupleBasesRejected(guard: GuardKind, kind: ViewKind)
    ensures !BasesAccepted(WrittenBases(ViewClassOf(kind), GetMixinClasses(guard, ViewClassOf(kind))))
  {
    var v := ViewClassOf(kind);
    var bases := WrittenBases(v, GetMixinClasses(guard, v));
    GetMixinClassesSpec(guard, kind);
    var g := if guard == NoGuard then 0 else 1;
    assert bases[g] == GenericViewMixin;
    assert bases[|bases| - 1] == v;
    assert IsSubclass(v, GenericViewMixin) by {
      assert v.bases[1] == GenericViewMixin;
    }
  }

  /** `self.fields or self.read_write_fields`; without a model the property raises. */
  function EditableFields(attrs: map<string, Value>): Result<Value>
    requires "fields" in attrs && "model" in attrs
  {
    if Truthy(attrs["fields"]) then Ok(attrs["fields"])
    else
      match ModelOf(attrs)
      case None => Err(AttributeError("_meta"))
      case Some(meta) => Ok(Names(ReadWriteFields(meta)))
  }

  /** `get_list_kwargs()` and the other four. */
  function ViewKwargs(comp: Composition, attrs: map<string, Value>, m: CrudMixin): Result<map<string, Value>>
    requires Configured(comp, attrs) && m in comp.crud
  {
    match m
    case ListMixin =>
      Ok(map["model" := attrs["model"], "queryset" := attrs["queryset"], "paginate_by" := attrs["paginate_by"]])
    case DetailMixin => Ok(map["model" := attrs["model"], "queryset" := attrs["queryset"]])
    case DeleteMixin => Ok(map["model" := attrs["model"], "queryset" := attrs["queryset"]])
    case _ =>
      match EditableFields(attrs)
      case Err(e) => Err(e)
      case Ok(fields) =>
        Ok(map["model" := attrs["model"], "queryset" := attrs["queryset"], "form_class" := attrs["form_class"],
               "fields" := fields, "prefix" := attrs["prefix"]])
  }

  /** `build_x_view()` and the `url(...)` item of `collect_urls`. */
  function BuildRoute(comp: Composition, attrs: map<string, Value>, m: CrudMixin): Result<Route>
    requires Configured(comp, attrs) && m in comp.crud
  {
    var (kwargs, viewClass) := WrapView(comp.guard, ViewClassOf(KindOf(m)));
    match ViewKwargs(comp, attrs, m)
    case Err(e) => Err(e)
    case Ok(extra) => Ok(Route(RoutePattern(m), View(viewClass, kwargs + extra), RouteName(m)))
  }

  /** A route is built unless it is the create or edit route of a viewset with
      neither `fields` nor a model. */
  lemma BuildRouteFails(comp: Composition, attrs: map<string, Value>, m: CrudMixin)
    requires Configured(comp, attrs) && m in comp.crud
    ensures BuildRoute(comp, attrs, m).Err? <==>
      m in {CreateMixin, UpdateMixin} && !Truthy(attrs["fields"]) && ModelOf(attrs).None?
  {
    assert BuildRoute(comp, attrs, m).Err? <==> ViewKwargs(comp, attrs, m).Err?;
  }

  lemma BuildRouteNamed(comp: Composition, attrs: map<string, Value>, m: CrudMixin)
    requires Configured(comp, attrs) && m in comp.crud
    requires BuildRoute(comp, attrs, m).Ok?
    ensures BuildRoute(comp, attrs, m).value.name == RouteName(m)
  {
  }

  /** Every view's keywords carry the model and the queryset, and never `viewset`. */
  lemma ViewKwargsShared(comp: Composition, attrs: map<string, Value>, m: CrudMixin)
    requires Configured(comp, attrs) && m in comp.crud
    requires ViewKwargs(comp, attrs, m).Ok?
    ensures var kw := ViewKwargs(comp, attrs, m).value;
      && "viewset" !in kw
      && "model" in kw && kw["model"] == attrs["model"]
      && "queryset" in kw && kw["queryset"] == attrs["queryset"]
  {
    match m
    case ListMixin =>
    case DetailMixin =>
    case DeleteMixin =>
    case _ =>
  }

  /** A built route carries the mixin's name and pattern, and its view gets the
      wrapped view class, the viewset, the model and the queryset. */
  lemma BuildRouteView(comp: Composition, attrs: map<string, Value>, m: CrudMixin)
    requires Configured(comp, attrs) && m in comp.crud
    requires BuildRoute(comp, attrs, m).Ok?
    ensures var r := BuildRoute(comp, attrs, m).value;
      && r.name == RouteName(m)
      && r.pattern == RoutePattern(m)
      && r.view.viewClass == WrapView(comp.guard, ViewClassOf(KindOf(m))).1
      && r.view.initkwargs["viewset"] == ViewSetSelf
      && r.view.initkwargs["model"] == attrs["model"]
      && r.view.initkwargs["queryset"] == attrs["queryset"]
  {
    var w := WrapView(comp.guard, ViewClassOf(KindOf(m)));
    var extra := ViewKwargs(comp, attrs, m).value;
    assert BuildRoute(comp, attrs, m).value == Route(RoutePattern(m), View(w.1, w.0 + extra), RouteName(m));
    ViewKwargsShared(comp, attrs, m);
  }

  /** An editing view gets the explicit `fields`, or else the model's read-write fields. */
  lemma BuildRouteFields(comp: Composition, attrs: map<string, Value>, m: CrudMixin)
    requires Configured(comp, attrs) && m in comp.crud && m in {CreateMixin, UpdateMixin}
    requires BuildRoute(comp, attrs, m).Ok?
    ensures BuildRoute(comp, attrs, m).value.view.initkwargs["fields"] ==
      if Truthy(attrs["fields"]) then attrs["fields"] else Names(ReadWriteFields(ModelOf(attrs).value))
  {
    var w := WrapView(comp.guard, ViewClassOf(KindOf(m)));
    var extra := ViewKwargs(comp, attrs, m).value;
    assert BuildRoute(comp, attrs, m).value.view.initkwargs == w.0 + extra;
    assert extra["fields"] == EditableFields(attrs).value;
  }

  /** The result of each mixin's `build_x_view()`, in method-resolution order. */
  function BuiltRoutes(comp: Composition, attrs: map<string, Value>, ms: seq<CrudMixin>): seq<Result<Route>>
    requires Configured(comp, attrs) && forall m :: m in ms ==> m in comp.crud
  {
    seq(|ms|, i requires 0 <= i < |ms| => BuildRoute(comp, attrs, ms[i]))
  }

  /** The `collect_urls(*other)` chain over already built results: each link
      puts its route in front of the routes it was given and calls the next
      link, and the first build that raises stops the chain. */
  function ChainRoutes<T>(built: seq<Result<T>>, other: seq<T>): Result<seq<T>>
    decreases |built|
  {
    if built == [] then Ok(other)
    else
      match built[0]
      case Err(e) => Err(e)
      case Ok(r) => ChainRoutes(built[1..], [r] + other)
  }

  /** The `collect_urls(*other)` chain of the viewset's CRUD mixins: each mixin
      in method-resolution order builds its route and passes it, in front of
      the routes it was given, on to the next; `BaseViewSet.collect_urls`
      returns what it receives. */
  function CollectUrls(comp: Composition, attrs: map<string, Value>, ms: seq<CrudMixin>, other: seq<Route>): Result<seq<Route>>
    requires Configured(comp, attrs) && forall m :: m in ms ==> m in comp.crud
  {
    ChainRoutes(BuiltRoutes(comp, attrs, ms), other)
  }

  /** The chain succeeds exactly when every build does. */
  lemma {:induction false} ChainSucceeds<T>(built: seq<Result<T>>, other: seq<T>)
    ensures ChainRoutes(built, other).Ok? <==> forall i :: 0 <= i < |built| ==> built[i].Ok?
    decreases |built|
  {
    if built != [] && built[0].Ok? {
      ChainSucceeds(built[1..], [built[0].value] + other);
      assert forall i :: 1 <= i < |built| ==> built[i] == built[1..][i - 1];
    }
  }

  /** A failing chain raises the error of the first build that fails. */
  lemma {:induction false} ChainFails<T>(built: seq<Result<T>>, other: seq<T>)
    requires ChainRoutes(built, other).Err?
    ensures exists i ::
      && 0 <= i < |built|
      && built[i] == Err(ChainRoutes(built, other).error)
      && forall j :: 0 <= j < i ==> built[j].Ok?
    decreases |built|
  {
    if built[0].Ok? {
      var rest := built[1..];
      ChainFails(rest, [built[0].value] + other);
      var i :| 0 <= i < |rest| && rest[i] == Err(ChainRoutes(rest, [built[0].value] + other).error) &&
        forall j :: 0 <= j < i ==> rest[j].Ok?;
      assert built[i + 1] == rest[i];
      assert forall j :: 1 <= j < i + 1 ==> built[j] == rest[j - 1];
    }
  }

  /** Each link adds exactly one route, in front: the routes passed in stay at
      the end, and the k-th route is the one the k-th link from the end built. */
  lemma {:induction false} ChainOrder<T>(built: seq<Result<T>>, other: seq<T>)
    requires ChainRoutes(built, other).Ok?
    ensures var rs := ChainRoutes(built, other).value;
      && |rs| == |built| + |other|
      && rs[|built|..] == other
      && forall k :: 0 <= k < |built| ==> built[|built| - 1 - k] == Ok(rs[k])
    decreases |built|
  {
    if built != [] {
      var rest, more := built[1..], [built[0].value] + other;
      ChainOrder(rest, more);
      var rs := ChainRoutes(rest, more).value;
      assert rs[|built|..] == rs[|rest|..][1..];
      forall k | 0 <= k < |built| ensures built[|built| - 1 - k] == Ok(rs[k]) {
        if k < |rest| {
          assert built[|built| - 1 - k] == rest[|rest| - 1 - k];
        } else {
          assert rs[k] == rs[|rest|..][0];
        }
      }
    }
  }

  /** `FieldNames` over routes: the `name=` of each route, in order. */
  function RouteNames(rs: seq<Route>): (names: seq<string>)
    ensures |names| == |rs|
    ensures forall i :: 0 <= i < |rs| ==> names[i] == rs[i].name
  {
    if rs == [] then [] else [rs[0].name] + RouteNames(rs[1..])
  }

  /** The names of the mixins' routes, last mixin first. */
  function ReversedRouteNames(ms: seq<CrudMixin>): (names: seq<string>)
    ensures |names| == |ms|
    ensures forall k :: 0 <= k < |ms| ==> names[k] == RouteName(ms[|ms| - 1 - k])
  {
    if ms == [] then [] else ReversedRouteNames(ms[1..]) + [RouteName(ms[0])]
  }

  /** Collecting succeeds exactly when every mixin builds its route. */
  lemma CollectUrlsSucceeds(comp: Composition, attrs: map<string, Value>, ms: seq<CrudMixin>, other: seq<Route>)
    requires Configured(comp, attrs) && forall m :: m in ms ==> m in comp.crud
    ensures CollectUrls(comp, attrs, ms, other).Ok? <==> forall m :: m in ms ==> BuildRoute(comp, attrs, m).Ok?
  {
    var built := BuiltRoutes(comp, attrs, ms);
    ChainSucceeds(built, other);
    if CollectUrls(comp, attrs, ms, other).Ok? {
      forall m | m in ms ensures BuildRoute(comp, attrs, m).Ok? {
        var i :| 0 <= i < |ms| && ms[i] == m;
        assert built[i] == BuildRoute(comp, attrs, m);
      }
    }
  }

  /** Collecting raises the error of the first mixin, in method-resolution order,
      whose build raises. */
  lemma CollectUrlsFails(comp: Composition, attrs: map<string, Value>, ms: seq<CrudMixin>, other: seq<Route>)
    requires Configured(comp, attrs) && forall m :: m in ms ==> m in comp.crud
    requires CollectUrls(comp, attrs, ms, other).Err?
    ensures exists i ::
      && 0 <= i < |ms|
      && BuildRoute(comp, attrs, ms[i]) == Err(CollectUrls(comp, attrs, ms, other).error)
      && forall j :: 0 <= j < i ==> BuildRoute(comp, attrs, ms[j]).Ok?
  {
    var built := BuiltRoutes(comp, attrs, ms);
    ChainFails(built, other);
    var i :| 0 <= i < |built| && built[i] == Err(ChainRoutes(built, other).error) &&
      forall j :: 0 <= j < i ==> built[j].Ok?;
    assert forall j :: 0 <= j < i ==> built[j] == BuildRoute(comp, attrs, ms[j]);
  }

  /** The routes come out in reverse mixin order, in front of the routes passed
      in: the k-th route is the one the k-th mixin from the end builds. */
  lemma CollectUrlsOrder(comp: Composition, attrs: map<string, Value>, ms: seq<CrudMixin>, other: seq<Route>)
    requires Configured(comp, attrs) && forall m :: m in ms ==> m in comp.crud
    requires CollectUrls(comp, attrs, ms, other).Ok?
    ensures var rs := CollectUrls(comp, attrs, ms, other).value;
      && |rs| == |ms| + |other|
      && rs[|ms|..] == other
      && forall k :: 0 <= k < |ms| ==> BuildRoute(comp, attrs, ms[|ms| - 1 - k]) == Ok(rs[k])
  {
    var built := BuiltRoutes(comp, attrs, ms);
    ChainOrder(built, other);
    var rs := ChainRoutes(built, other).value;
    forall k | 0 <= k < |ms| ensures BuildRoute(comp, attrs, ms[|ms| - 1 - k]) == Ok(rs[k]) {
      assert built[|ms| - 1 - k] == Ok(rs[k]);
    }
  }

  /** The route names are the mixins' names, last mixin first, followed by the
      names of the routes passed in. */
  lemma CollectUrlsNames(comp: Composition, attrs: map<string, Value>, ms: seq<CrudMixin>, other: seq<Route>)
    requires Configured(comp, attrs) && forall m :: m in ms ==> m in comp.crud
    requires CollectUrls(comp, attrs, ms, other).Ok?
    ensures RouteNames(CollectUrls(comp, attrs, ms, other).value) == ReversedRouteNames(ms) + RouteNames(other)
  {
    var rs := CollectUrls(comp, attrs, ms, other).value;
    CollectUrlsOrder(comp, attrs, ms, other);
    forall k | 0 <= k < |ms| ensures rs[k].name == RouteName(ms[|ms| - 1 - k]) {
      assert BuildRoute(comp, attrs, ms[|ms| - 1 - k]) == Ok(rs[k]);
      BuildRouteNamed(comp, attrs, ms[|ms| - 1 - k]);
    }
    NamesOfReversedRoutes(rs, ms, other);
  }

  lemma NamesOfReversedRoutes(rs: seq<Route>, ms: seq<CrudMixin>, other: seq<Route>)
    requires |rs| == |ms| + |other| && rs[|ms|..] == other
    requires forall k :: 0 <= k < |ms| ==> rs[k].name == RouteName(ms[|ms| - 1 - k])
    ensures RouteNames(rs) == ReversedRouteNames(ms) + RouteNames(other)
  {
    var lhs, rhs := RouteNames(rs), ReversedRouteNames(ms) + RouteNames(other);
    forall k | 0 <= k < |lhs| ensures lhs[k] == rhs[k] {
      if k >= |ms| {
        assert rs[k] == rs[|ms|..][k - |ms|];
      }
    }
  }

  // ---------------------------------------------------------------------------
  // collect_urls as written

  /** `build_x_view()` and the `url(...)` around it as written: `wrap_view` runs
      first, and its error ends the build. */
  function BuildRouteAsWritten(comp: Composition, attrs: map<string, Value>, m: CrudMixin): Result<Route>
    requires Configured(comp, attrs) && m in comp.crud
  {
    match WrapViewAsWritten(comp.guard, ViewClassOf(KindOf(m)))
    case Err(e) => Err(e)
    case Ok((kwargs, viewClass)) =>
      match ViewKwargs(comp, attrs, m)
      case Err(e) => Err(e)
      case Ok(extra) => Ok(Route(RoutePattern(m), View(viewClass, kwargs + extra), RouteName(m)))
  }

  /** The `collect_urls(*other)` chain as written. */
  function CollectUrlsAsWritten(comp: Composition, attrs: map<string, Value>, ms: seq<CrudMixin>, other: seq<Route>): Result<seq<Route>>
    requires Configured(comp, attrs) && forall m :: m in ms ==> m in comp.crud
  {
    ChainRoutes(seq(|ms|, i requires 0 <= i < |ms| => BuildRouteAsWritten(comp, attrs, ms[i])), other)
  }

  /** As written, collecting the routes of a viewset with any CRUD mixin raises
      the error of `wrap_view`: no route is ever built, whatever the viewset's
      attributes are; only a viewset without CRUD mixins returns its routes. */
  lemma CollectUrlsAsWrittenRaises(comp: Composition, attrs: map<string, Value>, ms: seq<CrudMixin>, other: seq<Route>)
    requires Configured(comp, attrs) && forall m :: m in ms ==> m in comp.crud
    ensures ms != [] ==> CollectUrlsAsWritten(comp, attrs, ms, other) == Err(WrapError(comp.guard))
    ensures ms == [] ==> CollectUrlsAsWritten(comp, attrs, ms, other) == Ok(other)
  {
    if ms != [] {
      WrapViewAsWrittenRaises(comp.guard, ViewClassOf(KindOf(ms[0])));
      assert BuildRouteAsWritten(comp, attrs, ms[0]) == Err(WrapError(comp.guard));
    }
  }

  // ---------------------------------------------------------------------------
  // Namespaces and reversing

  /** `self.namespace`. */
  function NamespaceAttr(attrs: map<string, Value>): Option<string>
    requires "namespace" in attrs
  {
    if attrs["namespace"].Str? then Some(attrs["namespace"].s) else None
  }

  /** The value `ModelNamespaceMixin.get_namespace` computes on its first call;
      `dash` is `helpers.camelcase_to_dash`. */
  function DerivedNamespace(attrs: map<string, Value>, dash: string -> string): Option<string>
    requires "namespace" in attrs && "model" in attrs
  {
    var explicit := NamespaceAttr(attrs);
    if explicit.None? && ModelOf(attrs).Some? then Some(dash(ModelOf(attrs).value.className)) else explicit
  }

  /** An explicit namespace wins; otherwise the model's dashed class name is used,
      and without a model there is none. */
  lemma DerivedNamespaceSpec(attrs: map<string, Value>, dash: string -> string)
    requires "namespace" in attrs && "model" in attrs
    ensures NamespaceAttr(attrs).Some? ==> DerivedNamespace(attrs, dash) == NamespaceAttr(attrs)
    ensures NamespaceAttr(attrs).None? && ModelOf(attrs).Some? ==>
      DerivedNamespace(attrs, dash) == Some(dash(ModelOf(attrs).value.className))
    ensures NamespaceAttr(attrs).None? && ModelOf(attrs).None? ==> DerivedNamespace(attrs, dash) == None
  {
  }

  /** `reverse_lazy(name, args=args)`, kept unevaluated. */
  datatype LazyUrl = LazyUrl(name: string, args: seq<Datum>)

  /** `'{}:{}'.format(namespace, name)`. */
  function QualifiedName(namespace: Option<string>, name: string): string
  {
    PyStr(namespace) + ":" + name
  }

  /** The qualified name is the namespace, a colon, then the route name; a
      missing namespace prints as "None". */
  lemma QualifiedNameSpec(namespace: Option<string>, name: string)
    ensures var q := QualifiedName(namespace, name);
      && |q| == |PyStr(namespace)| + 1 + |name|
      && q[..|PyStr(namespace)|] == PyStr(namespace)
      && q[|PyStr(namespace)|] == ':'
      && q[|PyStr(namespace)| + 1..] == name
    ensures namespace.Some? ==> QualifiedName(namespace, name) == namespace.value + ":" + name
    ensures namespace.None? ==> QualifiedName(namespace, name) == "None:" + name
  {
  }

  // ---------------------------------------------------------------------------
  // URL configuration

  /** An entry of a pattern list: a route, or anything else (such as a nested resolver). */
  datatype UrlEntry = Pattern(route: Route) | Resolver(token: string)

  /** `include(patterns('', *urls), namespace=...)`: the pattern list and the namespace. */
  datatype UrlConf = UrlConf(entries: seq<UrlEntry>, namespace: Option<string>)

  function Patterns(rs: seq<Route>): (es: seq<UrlEntry>)
    ensures |es| == |rs|
    ensures forall i :: 0 <= i < |rs| ==> es[i] == Pattern(rs[i])
  {
    if rs == [] then [] else [Pattern(rs[0])] + Patterns(rs[1..])
  }
}

=== FILE: permissions.dfy ===
/** The permission checkers of viewsets/permissions.py and the left-to-right
    conjunction that PermissionsMixin runs over them. A checker is built from
    (viewset, viewname, request) and answers for the view and for an object;
    here the viewset contributes only its model options, the request only its
    user. */
module Permissions {
  import opened Records

  datatype Checker =
    | BasePermissionChecker
    | ModelPermissionChecker
    | LoginRequiredChecker
    | SuperuserRequiredChecker
    | StaffRequiredChecker

  /** What an entry of `ModelPermissionChecker.permissions_map` asks for. */
  datatype Requirement = Always | AuthPermission(action: string)

  const PermissionsMap: map<string, Requirement> := map[
    "list" := Always,
    "detail" := Always,
    "add" := AuthPermission("add"),
    "edit" := AuthPermission("change"),
    "delete" := AuthPermission("delete")
  ]

  /** The requirement for a view name; names outside the map fall back to `lambda _: True`. */
  function RequirementFor(viewname: string): Requirement
  {
    if viewname in PermissionsMap then PermissionsMap[viewname] else Always
  }

  /** Django's `get_permission_codename(action, opts)`: `"<action>_<model_name>"`. */
  function PermissionCodename(action: string, meta: ModelMeta): string
  {
    action + "_" + meta.modelName
  }

  /** The permission string `_has_auth_permission` checks: `"<app_label>.<codename>"`. */
  function PermissionString(meta: ModelMeta, action: string): (perm: string)
    ensures perm == meta.appLabel + "." + action + "_" + meta.modelName
  {
    meta.appLabel + "." + PermissionCodename(action, meta)
  }

  /** `_has_auth_permission(name)`: reading `viewset.model_options` fails when the
      viewset has no model, and `request.user.has_perm` fails when the request
      carries no user. */
  function HasAuthPermission(model: Option<ModelMeta>, user: User, action: string): Result<bool>
  {
    match model
    case None => Err(AttributeError("_meta"))
    case Some(meta) =>
      if !user.present then Err(AttributeError("has_perm"))
      else Ok(HasPerm(user, PermissionString(meta, action)))
  }

  /** `request.user and request.user.is_authenticated()`. */
  predicate IsAuthenticated(user: User)
  {
    user.present && user.authenticated
  }

  /** `has_view_access()` of each checker, including the conjunct its `super()` call adds. */
  function ViewAccess(c: Checker, model: Option<ModelMeta>, viewname: string, user: User): Result<bool>
  {
    match c
    case BasePermissionChecker => Ok(true)
    case ModelPermissionChecker =>
      (match RequirementFor(viewname)
       case Always => Ok(true)
       case AuthPermission(action) => HasAuthPermission(model, user, action))
    case LoginRequiredChecker => Ok(IsAuthenticated(user))
    case SuperuserRequiredChecker =>
      Ok(IsAuthenticated(user) && (user.present && user.authenticated && user.superuser))
    case StaffRequiredChecker =>
      Ok(IsAuthenticated(user) && (user.present && user.authenticated && user.staff))
  }

  /** `has_object_access(obj)`: the base checker allows every object, every other
      checker answers as for the view. */
  function ObjectAccess(c: Checker, model: Option<ModelMeta>, viewname: string, user: User, obj: Instance): Result<bool>
  {
    match c
    case BasePermissionChecker => Ok(true)
    case _ => ViewAccess(c, model, viewname, user)
  }

  /** Which of the two questions a chain asks. */
  datatype Level = ViewLevel | ObjectLevel(obj: Instance)

  function Access(c: Checker, level: Level, model: Option<ModelMeta>, viewname: string, user: User): Result<bool>
  {
    match level
    case ViewLevel => ViewAccess(c, model, viewname, user)
    case ObjectLevel(obj) => ObjectAccess(c, model, viewname, user, obj)
  }

  /** The loop of `has_view_access`/`has_object_access`: checkers are asked left to
      right; the first denial answers False, an exception propagates, and an
      exhausted list answers True. */
  function Chain(cs: seq<Checker>, level: Level, model: Option<ModelMeta>, viewname: string, user: User): Result<bool>
    decreases |cs|
  {
    if cs == [] then Ok(true)
    else
      match Access(cs[0], level, model, viewname, user)
      case Err(e) => Err(e)
      case Ok(allowed) => if allowed then Chain(cs[1..], level, model, viewname, user) else Ok(false)
  }

  // ---------------------------------------------------------------------------
  // Truth tables of the single checkers

  lemma BaseAllowsEverything(model: Option<ModelMeta>, viewname: string, user: User, obj: Instance)
    ensures ViewAccess(BasePermissionChecker, model, viewname, user) == Ok(true)
    ensures ObjectAccess(BasePermissionChecker, model, viewname, user, obj) == Ok(true)
  {
  }

  /** `list`, `detail` and unknown names are always allowed; `add`, `edit` and
      `delete` need the `add`, `change` and `delete` permissions of the model. */
  lemma ModelCheckerTable(meta: ModelMeta, viewname: string, user: User)
    ensures viewname in {"list", "detail"} ==> ViewAccess(ModelPermissionChecker, Some(meta), viewname, user) == Ok(true)
    ensures viewname !in {"list", "detail", "add", "edit", "delete"} ==>
      ViewAccess(ModelPermissionChecker, Some(meta), viewname, user) == Ok(true)
    ensures viewname == "add" && user.present ==>
      ViewAccess(ModelPermissionChecker, Some(meta), viewname, user) == Ok(PermissionString(meta, "add") in user.perms)
    ensures viewname == "edit" && user.present ==>
      ViewAccess(ModelPermissionChecker, Some(meta), viewname, user) == Ok(PermissionString(meta, "change") in user.perms)
    ensures viewname == "delete" && user.present ==>
      ViewAccess(ModelPermissionChecker, Some(meta), viewname, user) == Ok(PermissionString(meta, "delete") in user.perms)
    ensures viewname in {"add", "edit", "delete"} && !user.present ==>
      ViewAccess(ModelPermissionChecker, Some(meta), viewname, user) == Err(AttributeError("has_perm"))
  {
  }

  /** Without a model only the three permission-backed names fail, by raising. */
  lemma ModelCheckerWithoutModel(viewname: string, user: User)
    ensures ViewAccess(ModelPermissionChecker, None, viewname, user).Err? <==> viewname in {"add", "edit", "delete"}
    ensures viewname !in {"add", "edit", "delete"} ==> ViewAccess(ModelPermissionChecker, None, viewname, user) == Ok(true)
  {
  }

  lemma LoginCheckerTable(model: Option<ModelMeta>, viewname: string, user: User)
    ensures ViewAccess(LoginRequiredChecker, model, viewname, user) == Ok(user.present && user.authenticated)
  {
  }

  /** The superuser and staff checkers imply the login checker; the staff checker
      looks at `is_staff` alone, so a superuser who is not staff is denied. */
  lemma StricterCheckersImplyLogin(model: Option<ModelMeta>, viewname: string, user: User)
    ensures ViewAccess(SuperuserRequiredChecker, model, viewname, user) == Ok(IsAuthenticated(user) && user.superuser)
    ensures ViewAccess(StaffRequiredChecker, model, viewname, user) == Ok(IsAuthenticated(user) && user.staff)
    ensures ViewAccess(SuperuserRequiredChecker, model, viewname, user) == Ok(true) ==>
      ViewAccess(LoginRequiredChecker, model, viewname, user) == Ok(true)
    ensures ViewAccess(StaffRequiredChecker, model, viewname, user) == Ok(true) ==>
      ViewAccess(LoginRequiredChecker, model, viewname, user) == Ok(true)
  {
  }

  lemma NonStaffSuperuserDenied(model: Option<ModelMeta>, viewname: string)
    ensures var root := User(true, true, false, true, {});
      ViewAccess(SuperuserRequiredChecker, model, viewname, root) == Ok(true) &&
      ViewAccess(StaffRequiredChecker, model, viewname, root) == Ok(false)
  {
  }

  /** Every checker but the base one answers for an object exactly as for the view. */
  lemma ObjectAccessIsViewAccess(c: Checker, model: Option<ModelMeta>, viewname: string, user: User, obj: Instance)
    requires c != BasePermissionChecker
    ensures ObjectAccess(c, model, viewname, user, obj) == ViewAccess(c, model, viewname, user)
  {
  }

  // ---------------------------------------------------------------------------
  // The chain

  /** The chain allows exactly when every checker allows. */
  lemma {:induction false} ChainAllowsIffAll(cs: seq<Checker>, level: Level, model: Option<ModelMeta>, viewname: string, user: User)
    ensures Chain(cs, level, model, viewname, user) == Ok(true) <==>
      forall i :: 0 <= i < |cs| ==> Access(cs[i], level, model, viewname, user) == Ok(true)
    decreases |cs|
  {
    if cs != [] {
      ChainAllowsIffAll(cs[1..], level, model, viewname, user);
      if Access(cs[0], level, model, viewname, user) == Ok(true) {
        forall i | 0 <= i < |cs[1..]| ensures cs[1..][i] == cs[i + 1] { }
      }
    }
  }

  /** A denial is the first checker that does not allow, all before it allowing. */
  lemma {:induction false} ChainDeniesAtFirstDenial(cs: seq<Checker>, level: Level, model: Option<ModelMeta>, viewname: string, user: User)
    requires Chain(cs, level, model, viewname, user) == Ok(false)
    ensures exists k ::
              && 0 <= k < |cs|
              && Access(cs[k], level, model, viewname, user) == Ok(false)
              && (forall j :: 0 <= j < k ==> Access(cs[j], level, model, viewname, user) == Ok(true))
    decreases |cs|
  {
    if Access(cs[0], level, model, viewname, user) == Ok(true) {
      ChainDeniesAtFirstDenial(cs[1..], level, model, viewname, user);
      var k :| 0 <= k < |cs[1..]| && Access(cs[1..][k], level, model, viewname, user) == Ok(false) &&
        forall j :: 0 <= j < k ==> Access(cs[1..][j], level, model, viewname, user) == Ok(true);
      assert Access(cs[k + 1], level, model, viewname, user) == Ok(false);
      forall j | 0 <= j < k + 1 ensures Access(cs[j], level, model, viewname, user) == Ok(true) {
        if j > 0 { assert cs[j] == cs[1..][j - 1]; }
      }
    } else {
      assert Access(cs[0], level, model, viewname, user) == Ok(false);
    }
  }

  /** The first checker that does not allow decides: its refusal or its error is
      the loop's answer, and the checkers after it are never consulted. */
  lemma {:induction false} ChainFirstDecides(cs: seq<Checker>, k: nat, level: Level, model: Option<ModelMeta>, viewname: string, user: User)
    requires k < |cs|
    requires Access(cs[k], level, model, viewname, user) != Ok(true)
    requires forall j :: 0 <= j < k ==> Access(cs[j], level, model, viewname, user) == Ok(true)
    ensures Chain(cs, level, model, viewname, user) == Access(cs[k], level, model, viewname, user)
    decreases k
  {
    if k > 0 {
      assert Access(cs[0], level, model, viewname, user) == Ok(true);
      forall j | 0 <= j < k - 1 ensures Access(cs[1..][j], level, model, viewname, user) == Ok(true) {
        assert cs[1..][j] == cs[j + 1];
      }
      ChainFirstDecides(cs[1..], k - 1, level, model, viewname, user);
      assert cs[1..][k - 1] == cs[k];
    }
  }

  /** Only the model checker can raise, only for the three editing views, and
      only when the viewset has no model or the request has no user. */
  lemma {:induction false} ChainRaisesOnlyOnAuthPermission(cs: seq<Checker>, level: Level, model: Option<ModelMeta>, viewname: string, user: User)
    ensures Chain(cs, level, model, viewname, user).Err? ==>
      && ModelPermissionChecker in cs
      && viewname in {"add", "edit", "delete"}
      && (model.None? || !user.present)
    decreases |cs|
  {
    if cs != [] && Access(cs[0], level, model, viewname, user) == Ok(true) {
      ChainRaisesOnlyOnAuthPermission(cs[1..], level, model, viewname, user);
      if Chain(cs, level, model, viewname, user).Err? {
        assert ModelPermissionChecker in cs[1..];
        var i :| 0 <= i < |cs[1..]| && cs[1..][i] == ModelPermissionChecker;
        assert cs[i + 1] == ModelPermissionChecker;
      }
    }
  }

  /** With a model set and a user on the request nothing raises, so the chain is
      the plain conjunction and its answer depends only on which checkers occur,
      not on their order or repetition. */
  lemma ChainOrderIndependent(cs: seq<Checker>, ds: seq<Checker>, level: Level, meta: ModelMeta, viewname: string, user: User)
    requires forall c :: c in cs <==> c in ds
    requires user.present
    ensures Chain(cs, level, Some(meta), viewname, user) == Chain(ds, level, Some(meta), viewname, user)
  {
    ChainAllowsIffAll(cs, level, Some(meta), viewname, user);
    ChainAllowsIffAll(ds, level, Some(meta), viewname, user);
    ChainRaisesOnlyOnAuthPermission(cs, level, Some(meta), viewname, user);
    ChainRaisesOnlyOnAuthPermission(ds, level, Some(meta), viewname, user);
    if Chain(cs, level, Some(meta), viewname, user) == Ok(true) {
      forall j | 0 <= j < |ds| ensures Access(ds[j], level, Some(meta), viewname, user) == Ok(true) {
        assert ds[j] in cs;
        var i :| 0 <= i < |cs| && cs[i] == ds[j];
      }
    } else if Chain(ds, level, Some(meta), viewname, user) == Ok(true) {
      forall j | 0 <= j < |cs| ensures Access(cs[j], level, Some(meta), viewname, user) == Ok(true) {
        assert cs[j] in ds;
        var i :| 0 <= i < |ds| && ds[i] == cs[j];
      }
    } else {
      var rc, rd := Chain(cs, level, Some(meta), viewname, user), Chain(ds, level, Some(meta), viewname, user);
      assert rc.Ok? && rd.Ok?;
      assert !rc.value && !rd.value;
      assert rc == Ok(false);
    }
  }

  /** Without a model the order can decide between a denial and an exception: a
      login check in front stops an anonymous user before the model check raises. */
  lemma ChainOrderMattersWithoutModel()
    ensures var anonymous := User(true, false, false, false, {});
      Chain([LoginRequiredChecker, ModelPermissionChecker], ViewLevel, None, "add", anonymous) == Ok(false) &&
      Chain([ModelPermissionChecker, LoginRequiredChecker], ViewLevel, None, "add", anonymous) == Err(AttributeError("_meta"))
  {
  }

  /** Without a user on the request the order decides as well: a login check in
      front refuses before the model check reads `request.user.has_perm`. */
  lemma ChainOrderMattersWithoutUser(meta: ModelMeta)
    ensures var nobody := User(false, false, false, false, {});
      Chain([LoginRequiredChecker, ModelPermissionChecker], ViewLevel, Some(meta), "add", nobody) == Ok(false) &&
      Chain([ModelPermissionChecker, LoginRequiredChecker], ViewLevel, Some(meta), "add", nobody) == Err(AttributeError("has_perm"))
  {
  }

  /** An always-allow checker chained with a staff checker admits exactly staff
      users, in either order. */
  lemma BaseAndStaffChain(model: Option<ModelMeta>, viewname: string, user: User)
    ensures Chain([BasePermissionChecker, StaffRequiredChecker], ViewLevel, model, viewname, user) == Ok(IsAuthenticated(user) && user.staff)
    ensures Chain([StaffRequiredChecker, BasePermissionChecker], ViewLevel, model, viewname, user) == Ok(IsAuthenticated(user) && user.staff)
  {
  }
}

=== FILE: records.dfy ===
/** Plain records standing in for the framework objects the viewsets touch:
    the request user, model metadata and fields, model instances, the
    exceptions the code raises, and the ordered dictionaries it builds. */
module Records {

  datatype Option<+T> = None | Some(value: T)

  /** The exceptions the modelled code can raise. */
  datatype Error =
    | AttributeError(attr: string)
    | AssertionError(message: string)
    | KeyError(key: string)
    | TypeError(message: string)
    | PermissionDenied

  datatype Result<+T> = Ok(value: T) | Err(error: Error)

  /** The outcome of a call whose only effect is to raise or not. */
  datatype Outcome = Proceed | Raised(error: Error)

  /** `request.user`: `present` is false when the request carries no user object. */
  datatype User = User(present: bool, authenticated: bool, staff: bool, superuser: bool, perms: set<string>)

  /** `user.has_perm(perm)`, answered from the user's permission set. */
  predicate HasPerm(user: User, perm: string)
  {
    perm in user.perms
  }

  /** An entry of `_meta.get_fields()`; `isConcreteField` is `isinstance(field, Field)`. */
  datatype Field = Field(name: string, verboseName: string, isConcreteField: bool)

  /** A model class and its `_meta`: `ownFields` is `get_fields(include_parents=False)`,
      `allFields` is `get_fields()`. */
  datatype ModelMeta = ModelMeta(
    className: string,
    appLabel: string,
    modelName: string,
    ownFields: seq<Field>,
    allFields: seq<Field>)

  /** An attribute value of a model instance, kept abstract. */
  datatype Datum = Datum(token: string)

  /** A model instance: its primary key and its attributes by name. */
  datatype Instance = Instance(pk: Datum, attrs: map<string, Datum>)

  /** Python's `str()` of an optional string: `None` prints as "None". */
  function PyStr(s: Option<string>): (r: string)
    ensures s.Some? ==> r == s.value
    ensures s.None? ==> r == "None"
  {
    match s
    case Some(v) => v
    case None => "None"
  }

  // ---------------------------------------------------------------------------
  // OrderedDict of (title, value) pairs built from a sequence of pairs

  type Pair = (string, Datum)

  function KeysOf(ps: seq<Pair>): (ks: seq<string>)
    ensures |ks| == |ps|
    ensures forall i :: 0 <= i < |ps| ==> ks[i] == ps[i].0
  {
    seq(|ps|, i requires 0 <= i < |ps| => ps[i].0)
  }

  predicate DistinctKeys(ps: seq<Pair>)
  {
    forall i, j :: 0 <= i < j < |ps| ==> ps[i].0 != ps[j].0
  }

  /** `d[k] = v` on an OrderedDict: an existing key keeps its position and takes
      the new value; a new key goes to the end. */
  function OdSet(d: seq<Pair>, k: string, v: Datum): (r: seq<Pair>)
    ensures (k in KeysOf(d)) ==> |r| == |d|
    ensures (k !in KeysOf(d)) ==> r == d + [(k, v)]
  {
    if d == [] then [(k, v)]
    else if d[0].0 == k then [(k, v)] + d[1..]
    else [d[0]] + OdSet(d[1..], k, v)
  }

  /** In an OrderedDict, where each key occurs once, setting a present key
      replaces that key's value in place and leaves every other entry alone. */
  lemma {:induction false} OdSetValues(d: seq<Pair>, k: string, v: Datum)
    requires DistinctKeys(d) && k in KeysOf(d)
    ensures |OdSet(d, k, v)| == |d|
    ensures forall i :: 0 <= i < |d| ==> OdSet(d, k, v)[i] == if d[i].0 == k then (k, v) else d[i]
    decreases |d|
  {
    var r := OdSet(d, k, v);
    if d[0].0 == k {
      assert r == [(k, v)] + d[1..];
      forall i | 0 < i < |d| ensures d[i].0 != k {
        assert d[0].0 != d[i].0;
      }
    } else {
      KeysOfCons(d);
      var t := d[1..];
      assert DistinctKeys(t) by {
        forall i, j | 0 <= i < j < |t| ensures t[i].0 != t[j].0 {
          assert t[i] == d[i + 1] && t[j] == d[j + 1];
        }
      }
      OdSetValues(t, k, v);
      assert r == [d[0]] + OdSet(t, k, v);
      forall i | 0 < i < |d| ensures r[i] == if d[i].0 == k then (k, v) else d[i] {
        assert r[i] == OdSet(t, k, v)[i - 1] && d[i] == t[i - 1];
      }
    }
  }

  /** The keys of a non-empty sequence are its first key and the keys of the rest. */
  lemma KeysOfCons(d: seq<Pair>)
    requires d != []
    ensures forall x :: x in KeysOf(d) <==> x == d[0].0 || x in KeysOf(d[1..])
  {
    assert KeysOf(d) == [d[0].0] + KeysOf(d[1..]);
  }

  /** Setting a key leaves the key sequence as it was when the key is present,
      and appends the key otherwise. */
  lemma {:induction false} OdSetKeySeq(d: seq<Pair>, k: string, v: Datum)
    ensures KeysOf(OdSet(d, k, v)) == if k in KeysOf(d) then KeysOf(d) else KeysOf(d) + [k]
    decreases |d|
  {
    var r := OdSet(d, k, v);
    if d == [] {
      assert KeysOf(r) == [k];
    } else if d[0].0 == k {
      assert KeysOf(d)[0] == k;
      assert r == [(k, v)] + d[1..];
      forall i | 0 <= i < |r| ensures KeysOf(r)[i] == KeysOf(d)[i] {
      }
    } else {
      var t := OdSet(d[1..], k, v);
      OdSetKeySeq(d[1..], k, v);
      assert r == [d[0]] + t;
      KeysOfCons(d);
      var expected := if k in KeysOf(d) then KeysOf(d) else KeysOf(d) + [k];
      assert |KeysOf(r)| == |expected|;
      forall i | 0 <= i < |r| ensures KeysOf(r)[i] == expected[i] {
        if i > 0 {
          assert KeysOf(r)[i] == KeysOf(t)[i - 1];
        }
      }
    }
  }

  /** Setting a key changes only that key's entry and adds no other key. */
  lemma OdSetKeys(d: seq<Pair>, k: string, v: Datum)
    ensures |KeysOf(OdSet(d, k, v))| >= |d|
    ensures forall i :: 0 <= i < |d| ==> KeysOf(OdSet(d, k, v))[i] == d[i].0
    ensures forall x :: x in KeysOf(OdSet(d, k, v)) <==> x == k || x in KeysOf(d)
    ensures DistinctKeys(d) ==> DistinctKeys(OdSet(d, k, v))
  {
    OdSetKeySeq(d, k, v);
    var r := OdSet(d, k, v);
    if DistinctKeys(d) {
      forall i, j | 0 <= i < j < |r| ensures r[i].0 != r[j].0 {
        assert KeysOf(r)[i] == r[i].0 && KeysOf(r)[j] == r[j].0;
        if j < |d| {
          assert d[i].0 != d[j].0;
        } else {
          assert KeysOf(d)[i] == d[i].0;
        }
      }
    }
  }

  /** `OrderedDict(pairs)`: the pairs are inserted from first to last. */
  function OrderedDictOf(ps: seq<Pair>): seq<Pair>
    decreases |ps|
  {
    if ps == [] then []
    else OdSet(OrderedDictOf(ps[..|ps| - 1]), ps[|ps| - 1].0, ps[|ps| - 1].1)
  }

  /** With pairwise distinct keys, the OrderedDict holds exactly the pairs, in their order. */
  lemma {:induction false} OrderedDictOfDistinct(ps: seq<Pair>)
    requires DistinctKeys(ps)
    ensures OrderedDictOf(ps) == ps
    decreases |ps|
  {
    if ps != [] {
      var init := ps[..|ps| - 1];
      assert DistinctKeys(init);
      OrderedDictOfDistinct(init);
      var last := ps[|ps| - 1];
      assert last.0 !in KeysOf(init) by {
        forall i | 0 <= i < |init|
          ensures KeysOf(init)[i] != last.0
        {
          assert ps[i].0 != ps[|ps| - 1].0;
        }
      }
      calc {
        OrderedDictOf(ps);
        OdSet(OrderedDictOf(init), last.0, last.1);
        OdSet(init, last.0, last.1);
        init + [last];
        ps;
      }
    }
  }

  /** The keys of a non-empty sequence are those of all pairs but the last, then the last key. */
  lemma KeysOfInit(ps: seq<Pair>)
    requires ps != []
    ensures forall k :: k in KeysOf(ps) <==> k in KeysOf(ps[..|ps| - 1]) || k == ps[|ps| - 1].0
  {
    var init := ps[..|ps| - 1];
    forall k | k in KeysOf(ps) ensures k in KeysOf(init) || k == ps[|ps| - 1].0 {
      var i :| 0 <= i < |ps| && KeysOf(ps)[i] == k;
      if i < |init| {
        assert KeysOf(init)[i] == k;
      }
    }
    forall k | k in KeysOf(init) ensures k in KeysOf(ps) {
      var i :| 0 <= i < |init| && KeysOf(init)[i] == k;
      assert KeysOf(ps)[i] == k;
    }
    assert KeysOf(ps)[|ps| - 1] == ps[|ps| - 1].0;
  }

  /** The keys of the OrderedDict are exactly the keys of the pairs. */
  lemma {:induction false} OrderedDictOfKeySet(ps: seq<Pair>)
    ensures forall k :: k in KeysOf(OrderedDictOf(ps)) <==> k in KeysOf(ps)
    decreases |ps|
  {
    if ps != [] {
      var init := ps[..|ps| - 1];
      var last := ps[|ps| - 1];
      OrderedDictOfKeySet(init);
      OdSetKeys(OrderedDictOf(init), last.0, last.1);
      KeysOfInit(ps);
    }
  }

  /** No key occurs twice in the OrderedDict. */
  lemma {:induction false} OrderedDictOfUnique(ps: seq<Pair>)
    ensures DistinctKeys(OrderedDictOf(ps))
    decreases |ps|
  {
    if ps != [] {
      var init := ps[..|ps| - 1];
      var last := ps[|ps| - 1];
      OrderedDictOfUnique(init);
      OdSetKeys(OrderedDictOf(init), last.0, last.1);
    }
  }

  /** Each key of the OrderedDict holds the value of the last pair with that
      key: a pair that no later pair overrides is an entry of the dictionary. */
  lemma {:induction false} OrderedDictOfLast(ps: seq<Pair>, i: nat)
    requires i < |ps|
    requires forall j :: i < j < |ps| ==> ps[j].0 != ps[i].0
    ensures ps[i] in OrderedDictOf(ps)
    decreases |ps|
  {
    var init := ps[..|ps| - 1];
    var last := ps[|ps| - 1];
    var od := OrderedDictOf(init);
    assert OrderedDictOf(ps) == OdSet(od, last.0, last.1);
    OrderedDictOfUnique(init);
    if i == |ps| - 1 {
      if last.0 in KeysOf(od) {
        OdSetValues(od, last.0, last.1);
        var p :| 0 <= p < |od| && KeysOf(od)[p] == last.0;
        assert OdSet(od, last.0, last.1)[p] == last;
      } else {
        assert OdSet(od, last.0, last.1)[|od|] == last;
      }
    } else {
      assert ps[i] == init[i];
      OrderedDictOfLast(init, i);
      var p :| 0 <= p < |od| && od[p] == ps[i];
      if last.0 in KeysOf(od) {
        OdSetValues(od, last.0, last.1);
        assert OdSet(od, last.0, last.1)[p] == ps[i];
      } else {
        assert OdSet(od, last.0, last.1)[p] == ps[i];
      }
    }
  }

  /** The keys of the OrderedDict are exactly the keys of the pairs, each once. */
  lemma OrderedDictOfKeys(ps: seq<Pair>)
    ensures forall k :: k in KeysOf(OrderedDictOf(ps)) <==> k in KeysOf(ps)
    ensures DistinctKeys(OrderedDictOf(ps))
  {
    OrderedDictOfKeySet(ps);
    OrderedDictOfUnique(ps);
  }
}

=== FILE: views.dfy ===
/** viewsets/views.py: the five generic views, the template names they try,
    the context they add, and where Create, Update and Delete redirect. */
module Views {
  import opened Records
  import opened Helpers

  // ---------------------------------------------------------------------------
  // Class tokens

  const ContextMixin: ViewClass := Token("ContextMixin")
  const TemplateResponseMixin: ViewClass := Token("TemplateResponseMixin")
  /** Django's single-object view mixin, base of the detail, create, update and delete views. */
  const SingleObjectMixin: ViewClass := Token("SingleObjectMixin")
  /** Django's multiple-object view mixin, base of the list view. */
  const MultipleObjectMixin: ViewClass := Token("MultipleObjectMixin")
  /** Mixins the guard puts around a view. viewsets/views.py defines neither, so
      they stand for the classes the guard intends; `Mixins.GetMixinClassesAsWritten`
      models the lookup that fails. */
  const DispatchViewMixin: ViewClass := Token("DispatchViewMixin")
  const CheckObjectViewMixin: ViewClass := Token("CheckObjectViewMixin")

  const GenericViewMixin: ViewClass := ViewClass("GenericViewMixin", [ContextMixin], map[])
  const TemplateMixin: ViewClass := ViewClass("TemplateMixin", [TemplateResponseMixin, ContextMixin], map[])

  datatype ViewKind = ListKind | DetailKind | CreateKind | UpdateKind | DeleteKind

  /** The `generic_name` class attribute of each view. */
  function GenericName(kind: ViewKind): string
  {
    match kind
    case ListKind => "list"
    case DetailKind => "detail"
    case CreateKind => "create"
    case UpdateKind => "update"
    case DeleteKind => "delete"
  }

  /** The framework's generic view each class extends. */
  function FrameworkView(kind: ViewKind): ViewClass
  {
    match kind
    case ListKind => ViewClass("ListView", [MultipleObjectMixin], map[])
    case DetailKind => ViewClass("DetailView", [SingleObjectMixin], map[])
    case CreateKind => ViewClass("CreateView", [SingleObjectMixin], map[])
    case UpdateKind => ViewClass("UpdateView", [SingleObjectMixin], map[])
    case DeleteKind => ViewClass("DeleteView", [SingleObjectMixin], map[])
  }

  /** `class XView(TemplateMixin, GenericViewMixin, generic_views.XView)` with its `generic_name`. */
  function ViewClassOf(kind: ViewKind): (c: ViewClass)
    ensures c.bases == [TemplateMixin, GenericViewMixin, FrameworkView(kind)]
    ensures c.attrs == map["generic_name" := GenericName(kind)]
  {
    ViewClass(FrameworkView(kind).name, [TemplateMixin, GenericViewMixin, FrameworkView(kind)], map["generic_name" := GenericName(kind)])
  }

  lemma GenericNames()
    ensures [GenericName(ListKind), GenericName(DetailKind), GenericName(CreateKind),
             GenericName(UpdateKind), GenericName(DeleteKind)] == ["list", "detail", "create", "update", "delete"]
    ensures forall k :: ViewClassOf(k).attrs["generic_name"] == GenericName(k)
  {
  }

  /** Every view but the list view is a single-object view. */
  lemma {:induction false} SingleObjectViews(kind: ViewKind)
    ensures IsSubclass(ViewClassOf(kind), SingleObjectMixin) <==> kind != ListKind
  {
    var c := ViewClassOf(kind);
    assert c.bases[2] == FrameworkView(kind);
    assert FrameworkView(kind).bases[0] == (if kind == ListKind then MultipleObjectMixin else SingleObjectMixin);
    assert IsSubclass(SingleObjectMixin, SingleObjectMixin);
    if kind == ListKind {
      assert !IsSubclass(MultipleObjectMixin, SingleObjectMixin);
      assert !IsSubclass(FrameworkView(kind), SingleObjectMixin) by {
        assert FrameworkView(kind).bases == [MultipleObjectMixin];
      }
      assert !IsSubclass(ContextMixin, SingleObjectMixin);
      assert !IsSubclass(TemplateResponseMixin, SingleObjectMixin);
      assert !IsSubclass(TemplateMixin, SingleObjectMixin) by {
        assert forall i :: 0 <= i < |TemplateMixin.bases| ==> TemplateMixin.bases[i] in {TemplateResponseMixin, ContextMixin};
      }
      assert !IsSubclass(GenericViewMixin, SingleObjectMixin) by {
        assert forall i :: 0 <= i < |GenericViewMixin.bases| ==> GenericViewMixin.bases[i] == ContextMixin;
      }
      assert forall i :: 0 <= i < |c.bases| ==> c.bases[i] in {TemplateMixin, GenericViewMixin, FrameworkView(kind)};
    } else {
      assert IsSubclass(FrameworkView(kind), SingleObjectMixin);
    }
  }

  // ---------------------------------------------------------------------------
  // TemplateMixin.get_template_names

  /** `if self.generic_name`: None and the empty string are false. */
  predicate IsSet(name: Option<string>)
  {
    name.Some? && name.value != ""
  }

  /** The template names tried, most specific first, given the model (if any),
      the `generic_name` and the names the framework already proposes. */
  function TemplateNames(model: Option<ModelMeta>, genericName: Option<string>, inherited: seq<string>): (names: seq<string>)
    ensures |names| >= |inherited| && names[|names| - |inherited|..] == inherited
  {
    var withFallback := if IsSet(genericName) then ["viewsets/" + genericName.value + ".html"] + inherited else inherited;
    if model.Some? && IsSet(genericName) then
      var g := genericName.value;
      [model.value.appLabel + "/" + model.value.modelName + "/" + g + ".html",
       model.value.appLabel + "/" + g + ".html",
       g + ".html"] + withFallback
    else withFallback
  }

  /** With a model and a generic name: four candidates, most specific first, then the inherited list. */
  lemma TemplateNamesWithModel(meta: ModelMeta, g: string, inherited: seq<string>)
    requires g != ""
    ensures TemplateNames(Some(meta), Some(g), inherited) ==
      [meta.appLabel + "/" + meta.modelName + "/" + g + ".html",
       meta.appLabel + "/" + g + ".html",
       g + ".html",
       "viewsets/" + g + ".html"] + inherited
  {
  }

  /** With a generic name but no model: only the package fallback is added. */
  lemma TemplateNamesWithoutModel(g: string, inherited: seq<string>)
    requires g != ""
    ensures TemplateNames(None, Some(g), inherited) == ["viewsets/" + g + ".html"] + inherited
  {
  }

  /** Without a generic name the inherited list comes back unchanged. */
  lemma TemplateNamesWithoutGenericName(model: Option<ModelMeta>, genericName: Option<string>, inherited: seq<string>)
    requires !IsSet(genericName)
    ensures TemplateNames(model, genericName, inherited) == inherited
  {
  }

  // ---------------------------------------------------------------------------
  // get_context_data

  /** A context entry; `V` is the type of the viewset a view refers to. */
  datatype ContextValue<V> = ViewsetEntry(viewset: Option<V>) | ModelMetaEntry(meta: ModelMeta) | OtherEntry(token: string)

  /** The state of a view instance that `get_context_data` reads. */
  datatype ViewState<V> = ViewState(model: Option<ModelMeta>, viewset: Option<V>)

  /** `TemplateMixin.get_context_data` followed, through `super()`, by
      `GenericViewMixin.get_context_data` on the keyword arguments. */
  function ContextData<V>(view: ViewState<V>, kwargs: map<string, ContextValue<V>>): (ctx: map<string, ContextValue<V>>)
  {
    var withMeta := if view.model.Some? then kwargs["model_meta" := ModelMetaEntry(view.model.value)] else kwargs;
    withMeta["viewset" := ViewsetEntry(view.viewset)]
  }

  /** The context always gains `viewset`, gains `model_meta` when the view has a
      model, and keeps every other entry. */
  lemma ContextDataEntries<V>(view: ViewState<V>, kwargs: map<string, ContextValue<V>>)
    ensures var ctx := ContextData(view, kwargs);
      && ctx.Keys == kwargs.Keys + {"viewset"} + (if view.model.Some? then {"model_meta"} else {})
      && ctx["viewset"] == ViewsetEntry(view.viewset)
      && (view.model.Some? ==> ctx["model_meta"] == ModelMetaEntry(view.model.value))
      && (forall k :: k in kwargs && k != "viewset" && (k != "model_meta" || view.model.None?) ==> ctx[k] == kwargs[k])
  {
  }

  // ---------------------------------------------------------------------------
  // get_success_url

  /** A call `viewset.reverse(name, *args)`. */
  datatype ReverseCall = ReverseCall(name: string, args: seq<Datum>)

  /** The redirect after a successful create, update or delete; the list and
      detail views define none. */
  function SuccessTarget(kind: ViewKind, obj: Instance): Option<ReverseCall>
  {
    match kind
    case CreateKind => Some(ReverseCall("detail", [obj.pk]))
    case UpdateKind => Some(ReverseCall("detail", [obj.pk]))
    case DeleteKind => Some(ReverseCall("list", []))
    case _ => None
  }

  /** Create and update go to the object's detail page, delete to the list. */
  lemma SuccessTargets(kind: ViewKind, obj: Instance)
    ensures kind in {CreateKind, UpdateKind} ==> SuccessTarget(kind, obj) == Some(ReverseCall("detail", [obj.pk]))
    ensures kind == DeleteKind ==> SuccessTarget(kind, obj) == Some(ReverseCall("list", []))
    ensures SuccessTarget(kind, obj).None? <==> kind in {ListKind, DetailKind}
  {
  }
}

=== FILE: viewset.dfy ===
/** A viewset instance: `viewset.BaseViewSet` composed with the mixins of
    viewsets/mixins.py. Its data attributes live in `attrs`; `namespaceMemo`
    and `urlsMemo` are the `_namespace` and `_urls` attributes that
    `get_namespace` and the `urls` property add on first use. */
module ViewSets {
  import opened Records
  import opened Permissions
  import opened Views
  import opened Mixins

  class ViewSet {
    /** The mixins the viewset's class is composed of. */
    const comp: Composition
    /** `helpers.camelcase_to_dash`, applied to the model's class name. */
    const camelcaseToDash: string -> string
    /** The instance's data attributes: class defaults, overridden by constructor keywords. */
    var attrs: map<string, Value>
    /** `self._namespace`, once `ModelNamespaceMixin.get_namespace` has run. */
    var namespaceMemo: Option<Option<string>>
    /** `self._urls`, once the `urls` property has run. */
    var urlsMemo: Option<UrlConf>

    ghost predicate Valid()
      reads this
    {
      Configured(comp, attrs)
    }

    /** A fresh instance carries the class defaults and no memoised values. */
    constructor (comp: Composition, camelcaseToDash: string -> string)
      ensures this.comp == comp && this.camelcaseToDash == camelcaseToDash
      ensures attrs == ClassDefaults(comp)
      ensures namespaceMemo == None && urlsMemo == None
      ensures Valid()
    {
      this.comp := comp;
      this.camelcaseToDash := camelcaseToDash;
      attrs := ClassDefaults(comp);
      namespaceMemo := None;
      urlsMemo := None;
      new;
      DefaultsConfigured(comp);
    }

    /** `BaseViewSet.__init__(**kwargs)`: the keywords override the class's
        attributes on the instance, and an unknown keyword raises. */
    method Init(kwargs: map<string, Value>) returns (outcome: Outcome)
      requires Valid() && WellTyped(kwargs)
      modifies this`attrs
      ensures Valid()
      ensures outcome == Proceed <==> kwargs.Keys <= DeclaredKeys(comp)
      ensures outcome == Proceed ==> attrs == old(attrs) + kwargs
      ensures outcome.Raised? ==> outcome.error == AssertionError("Pass unknown parameter")
      ensures forall k :: k in attrs ==> attrs[k] == old(attrs)[k] || (k in kwargs && attrs[k] == kwargs[k])
    {
      var updated;
      outcome, updated := ApplyKeywords(attrs, kwargs);
      KeywordsKeepTypes(attrs, kwargs, updated);
      attrs := updated;
    }

    // -------------------------------------------------------------------------
    // Namespaces and reversing

    /** The answer `get_namespace()` gives in the current state. */
    ghost function Namespace(): Option<string>
      reads this
      requires Valid() && comp.namespacing != NoNamespace
    {
      if comp.namespacing == NamespaceMixin then NamespaceAttr(attrs)
      else if namespaceMemo.Some? then namespaceMemo.value
      else DerivedNamespace(attrs, camelcaseToDash)
    }

    /** The name `reverse(name)` resolves in the current state. */
    ghost function ReversedName(name: string): string
      reads this
      requires Valid()
    {
      if comp.namespacing == NoNamespace then name else QualifiedName(Namespace(), name)
    }

    /** `NamespaceMixin.get_namespace` answers the `namespace` attribute;
        `ModelNamespaceMixin.get_namespace` derives a name from the model on the
        first call, remembers it, and answers the remembered name from then on. */
    method GetNamespace() returns (namespace: Option<string>)
      requires Valid() && comp.namespacing != NoNamespace
      modifies this`namespaceMemo
      ensures namespace == old(Namespace())
      ensures comp.namespacing == NamespaceMixin ==> namespace == NamespaceAttr(attrs) && namespaceMemo == old(namespaceMemo)
      ensures comp.namespacing == ModelNamespaceMixin ==>
        && namespaceMemo == Some(namespace)
        && (old(namespaceMemo).Some? ==> namespaceMemo == old(namespaceMemo))
        && (old(namespaceMemo).None? ==> namespace == DerivedNamespace(attrs, camelcaseToDash))
      ensures Namespace() == namespace
    {
      if comp.namespacing == NamespaceMixin {
        return NamespaceAttr(attrs);
      }
      if namespaceMemo.None? {
        var derived := NamespaceAttr(attrs);
        var model := ModelOf(attrs);
        if derived.None? && model.Some? {
          derived := Some(camelcaseToDash(model.value.className));
        }
        namespaceMemo := Some(derived);
      }
      namespace := namespaceMemo.value;
    }

    /** `reverse(name, *args)`: a lazy URL for the name, prefixed by the
        namespace and a colon when the viewset has a namespace mixin. */
    method Reverse(name: string, args: seq<Datum>) returns (url: LazyUrl)
      requires Valid()
      modifies this`namespaceMemo
      ensures url == LazyUrl(old(ReversedName(name)), args)
      ensures comp.namespacing == NoNamespace ==> url.name == name && namespaceMemo == old(namespaceMemo)
      ensures comp.namespacing != NoNamespace ==> Namespace() == old(Namespace())
    {
      if comp.namespacing == NoNamespace {
        return LazyUrl(name, args);
      }
      var namespace := GetNamespace();
      return LazyUrl(QualifiedName(namespace, name), args);
    }

    /** `get_success_url` of the view of the given kind, which reverses through its viewset. */
    method SuccessUrl(kind: ViewKind, obj: Instance) returns (url: Option<LazyUrl>)
      requires Valid()
      modifies this`namespaceMemo
      ensures kind in {CreateKind, UpdateKind} ==> url == Some(LazyUrl(old(ReversedName("detail")), [obj.pk]))
      ensures kind == DeleteKind ==> url == Some(LazyUrl(old(ReversedName("list")), []))
      ensures kind in {ListKind, DetailKind} ==> url.None? && namespaceMemo == old(namespaceMemo)
    {
      var target := SuccessTarget(kind, obj);
      if target.None? {
        return None;
      }
      var u := Reverse(target.value.name, target.value.args);
      return Some(u);
    }

    // -------------------------------------------------------------------------
    // URL configuration

    /** The routes `collect_urls()` produces from the current attributes. */
    ghost function Collected(): Result<seq<Route>>
      reads this
      requires Valid()
    {
      CollectUrls(comp, attrs, comp.crud, [])
    }

    /** What `get_urls()` answers in the current state. */
    ghost function UrlsValue(): Result<UrlConf>
      reads this
      requires Valid()
    {
      match Collected()
      case Err(e) => Err(e)
      case Ok(rs) => Ok(UrlConf(Patterns(rs), if comp.namespacing == NoNamespace then None else Namespace()))
    }

    /** What the `urls` property answers in the current state. */
    ghost function UrlsAnswer(): Result<UrlConf>
      reads this
      requires Valid()
    {
      if urlsMemo.Some? then Ok(urlsMemo.value) else UrlsValue()
    }

    /** `get_urls()`: the collected routes as a URL configuration, named by the
        namespace when the viewset has a namespace mixin. A route that cannot be
        built raises before the namespace is asked for. */
    method GetUrls() returns (r: Result<UrlConf>)
      requires Valid()
      modifies this`namespaceMemo
      ensures r == old(UrlsValue())
      ensures r.Err? ==> namespaceMemo == old(namespaceMemo)
      ensures comp.namespacing != NoNamespace ==> Namespace() == old(Namespace())
    {
      var routes := CollectUrls(comp, attrs, comp.crud, []);
      if routes.Err? {
        return Err(routes.error);
      }
      var namespace := None;
      if comp.namespacing != NoNamespace {
        namespace := GetNamespace();
      }
      return Ok(UrlConf(Patterns(routes.value), namespace));
    }

    /** The `urls` property: computed once, then answered from `_urls`. A failed
        computation stores nothing. */
    method Urls() returns (r: Result<UrlConf>)
      requires Valid()
      modifies this`namespaceMemo, this`urlsMemo
      ensures old(urlsMemo).Some? ==> r == Ok(old(urlsMemo).value) && namespaceMemo == old(namespaceMemo)
      ensures old(urlsMemo).None? ==> r == old(UrlsValue())
      ensures r == old(UrlsAnswer())
      ensures urlsMemo == (if r.Ok? then Some(r.value) else None)
      ensures comp.namespacing != NoNamespace ==> Namespace() == old(Namespace())
    {
      if urlsMemo.Some? {
        return Ok(urlsMemo.value);
      }
      r := GetUrls();
      if r.Ok? {
        urlsMemo := Some(r.value);
      }
    }

    // -------------------------------------------------------------------------
    // PermissionsMixin

    /** The `permission_check_classes` attribute. */
    function CheckClasses(): seq<Checker>
      reads this
      requires Valid() && comp.guard == PermissionsMixin
    {
      attrs["permission_check_classes"].checkers
    }

    /** The `model` attribute, when it is a model class. */
    function Model(): Option<ModelMeta>
      reads this
      requires Valid() && HasModelMixin(comp)
    {
      ModelOf(attrs)
    }

    /** `has_view_access`: each checker in turn; the first that refuses decides,
        and a checker that raises stops the loop. */
    method HasViewAccess(viewname: string, user: User) returns (r: Result<bool>)
      requires Valid() && comp.guard == PermissionsMixin
      ensures r == Chain(CheckClasses(), ViewLevel, Model(), viewname, user)
    {
      var checkers := CheckClasses();
      var i := 0;
      while i < |checkers|
        invariant 0 <= i <= |checkers|
        invariant Chain(checkers, ViewLevel, Model(), viewname, user) == Chain(checkers[i..], ViewLevel, Model(), viewname, user)
      {
        var allowed := ViewAccess(checkers[i], Model(), viewname, user);
        if allowed.Err? {
          return Err(allowed.error);
        }
        if !allowed.value {
          return Ok(false);
        }
        assert checkers[i..][1..] == checkers[i + 1..];
        i := i + 1;
      }
      return Ok(true);
    }

    /** `has_object_access`: as `has_view_access`, asking each checker about the object. */
    method HasObjectAccess(viewname: string, user: User, obj: Instance) returns (r: Result<bool>)
      requires Valid() && comp.guard == PermissionsMixin
      ensures r == Chain(CheckClasses(), ObjectLevel(obj), Model(), viewname, user)
    {
      var checkers := CheckClasses();
      var i := 0;
      while i < |checkers|
        invariant 0 <= i <= |checkers|
        invariant Chain(checkers, ObjectLevel(obj), Model(), viewname, user) == Chain(checkers[i..], ObjectLevel(obj), Model(), viewname, user)
      {
        var allowed := ObjectAccess(checkers[i], Model(), viewname, user, obj);
        if allowed.Err? {
          return Err(allowed.error);
        }
        if !allowed.value {
          return Ok(false);
        }
        assert checkers[i..][1..] == checkers[i + 1..];
        i := i + 1;
      }
      return Ok(true);
    }

    /** `has_access(viewname, request, obj=None)`: object level when an object is given. */
    method HasAccess(viewname: string, user: User, obj: Option<Instance>) returns (r: Result<bool>)
      requires Valid() && comp.guard == PermissionsMixin
      ensures obj.Some? ==> r == Chain(CheckClasses(), ObjectLevel(obj.value), Model(), viewname, user)
      ensures obj.None? ==> r == Chain(CheckClasses(), ViewLevel, Model(), viewname, user)
    {
      if obj.Some? {
        r := HasObjectAccess(viewname, user, obj.value);
      } else {
        r := HasViewAccess(viewname, user);
      }
    }

    /** `pre_dispatch_request`: `GuardMixin` lets every request through;
        `PermissionsMixin` raises `PermissionDenied` when view access is refused. */
    method PreDispatchRequest(viewname: string, user: User) returns (outcome: Outcome)
      requires Valid() && comp.guard != NoGuard
      ensures comp.guard == GuardMixin ==> outcome == Proceed
      ensures comp.guard == PermissionsMixin ==>
        var access := Chain(CheckClasses(), ViewLevel, Model(), viewname, user);
        && (outcome == Proceed <==> access == Ok(true))
        && (outcome == Raised(PermissionDenied) <==> access == Ok(false) || access == Err(PermissionDenied))
        && (access.Err? ==> outcome == Raised(access.error))
    {
      if comp.guard == GuardMixin {
        return Proceed;
      }
      var allowed := HasViewAccess(viewname, user);
      if allowed.Err? {
        return Raised(allowed.error);
      }
      if !allowed.value {
        return Raised(PermissionDenied);
      }
      return Proceed;
    }

    /** `check_object`: as `pre_dispatch_request`, at the object level. */
    method CheckObject(viewname: string, user: User, obj: Instance) returns (outcome: Outcome)
      requires Valid() && comp.guard != NoGuard
      ensures comp.guard == GuardMixin ==> outcome == Proceed
      ensures comp.guard == PermissionsMixin ==>
        var access := Chain(CheckClasses(), ObjectLevel(obj), Model(), viewname, user);
        && (outcome == Proceed <==> access == Ok(true))
        && (outcome == Raised(PermissionDenied) <==> access == Ok(false) || access == Err(PermissionDenied))
        && (access.Err? ==> outcome == Raised(access.error))
    {
      if comp.guard == GuardMixin {
        return Proceed;
      }
      var allowed := HasObjectAccess(viewname, user, obj);
      if allowed.Err? {
        return Raised(allowed.error);
      }
      if !allowed.value {
        return Raised(PermissionDenied);
      }
      return Proceed;
    }

    // -------------------------------------------------------------------------
    // ModelSerializeMixin

    /** `serialize_object(obj)`: walks the model's own fields, skips those that
        are not concrete fields, reads the others' values off the object, and
        gathers (title, value) pairs into an OrderedDict. Without a model,
        `model_options` raises. */
    method SerializeObject(obj: Instance) returns (r: Result<seq<Pair>>)
      requires Valid() && HasSerializeMixin(comp)
      ensures Model().None? ==> r == Err(AttributeError("_meta"))
      ensures Model().Some? ==> r == Serialized(Model().value, obj)
    {
      var model := Model();
      if model.None? {
        return Err(AttributeError("_meta"));
      }
      var pairs := SerializeFields(model.value.ownFields, obj);
      if pairs.Err? {
        return Err(pairs.error);
      }
      r := Ok(OrderedDictOf(pairs.value));
    }
  }
}

=== FILE: viewsets_tags.dfy ===
/** viewsets/templatetags/viewsets_tags.py: the template tags and filters that
    ask a viewset whether it has a route, whether the user may use it, reverse
    through it, and render a form or an object. The template context is given
    by its `viewset` and `request.user` entries. */
module Tags {
  import opened Records
  import opened Mixins
  import opened ViewSets

  // ---------------------------------------------------------------------------
  // viewset_has

  /** The entry is a route pattern with the given name. */
  predicate NamesRoute(e: UrlEntry, name: string)
  {
    e.Pattern? && e.route.name == name
  }

  /** Some route pattern of the configuration has the name; other entries do not count. */
  predicate HasRoute(conf: UrlConf, name: string)
  {
    exists i :: 0 <= i < |conf.entries| && NamesRoute(conf.entries[i], name)
  }

  /** The loop of `viewset_has` over the pattern list. */
  method FindRoute(conf: UrlConf, name: string) returns (found: bool)
    ensures found <==> HasRoute(conf, name)
  {
    var i := 0;
    while i < |conf.entries|
      invariant 0 <= i <= |conf.entries|
      invariant forall j :: 0 <= j < i ==> !NamesRoute(conf.entries[j], name)
    {
      if conf.entries[i].Pattern? && conf.entries[i].route.name == name {
        return true;
      }
      i := i + 1;
    }
    return false;
  }

  /** `viewset_has(viewset, view_name)`: reads the viewset's `urls` (building
      them on first use) and looks for the name. Without a viewset the
      attribute lookup raises. */
  method ViewsetHas(viewset: ViewSet?, name: string) returns (r: Result<bool>)
    requires viewset != null ==> viewset.Valid()
    modifies viewset
    ensures viewset == null ==> r == Err(AttributeError("urls"))
    ensures viewset != null ==>
      var urls := old(viewset.UrlsAnswer());
      && (urls.Err? ==> r == Err(urls.error))
      && (urls.Ok? ==> r == Ok(HasRoute(urls.value, name)))
    ensures viewset != null ==> viewset.Valid() && viewset.attrs == old(viewset.attrs)
    ensures viewset != null ==>
      var urls := old(viewset.UrlsAnswer());
      && viewset.UrlsAnswer() == urls
      && viewset.urlsMemo == (if urls.Ok? then Some(urls.value) else None)
    ensures viewset != null && viewset.comp.namespacing != NoNamespace ==>
      viewset.Namespace() == old(viewset.Namespace())
  {
    if viewset == null {
      return Err(AttributeError("urls"));
    }
    var urls := viewset.Urls();
    if urls.Err? {
      return Err(urls.error);
    }
    var found := FindRoute(urls.value, name);
    return Ok(found);
  }

  /** A template that asks `viewset_has` twice gets the same answer both times:
      the second call is answered from the `_urls` memo, or recomputes the
      same failure. */
  method ViewsetHasAgain(viewset: ViewSet, name: string) returns (first: Result<bool>, second: Result<bool>)
    requires viewset.Valid()
    modifies viewset
    ensures first == second
    ensures viewset.Valid() && viewset.attrs == old(viewset.attrs)
  {
    first := ViewsetHas(viewset, name);
    second := ViewsetHas(viewset, name);
  }

  // ---------------------------------------------------------------------------
  // viewset_has_permission

  /** A viewset's `is_has_permission(request, view_name, obj)`, when it defines one. */
  type PermissionHook = (User, string, Option<Instance>) -> bool

  /** `viewset_has_permission(context, view_name, obj=None)`: false for a route
      the viewset does not have; otherwise the viewset's own answer, or true
      when it defines no `is_has_permission`. */
  method ViewsetHasPermission(viewset: ViewSet?, hook: Option<PermissionHook>, user: User, name: string, obj: Option<Instance>)
    returns (r: Result<bool>)
    requires viewset != null ==> viewset.Valid()
    modifies viewset
    ensures viewset == null ==> r == Err(AttributeError("urls"))
    ensures viewset != null ==>
      var urls := old(viewset.UrlsAnswer());
      && (urls.Err? ==> r == Err(urls.error))
      && (urls.Ok? && !HasRoute(urls.value, name) ==> r == Ok(false))
      && (urls.Ok? && HasRoute(urls.value, name) && hook.None? ==> r == Ok(true))
      && (urls.Ok? && HasRoute(urls.value, name) && hook.Some? ==> r == Ok(hook.value(user, name, obj)))
    ensures viewset != null ==> viewset.Valid() && viewset.attrs == old(viewset.attrs)
    ensures viewset != null ==>
      var urls := old(viewset.UrlsAnswer());
      && viewset.UrlsAnswer() == urls
      && viewset.urlsMemo == (if urls.Ok? then Some(urls.value) else None)
    ensures viewset != null && viewset.comp.namespacing != NoNamespace ==>
      viewset.Namespace() == old(viewset.Namespace())
  {
    var has := ViewsetHas(viewset, name);
    if has.Err? {
      return Err(has.error);
    }
    if !has.value {
      return Ok(false);
    }
    if hook.None? {
      return Ok(true);
    }
    return Ok(hook.value(user, name, obj));
  }

  // ---------------------------------------------------------------------------
  // viewset_reverse

  /** `viewset_reverse(context, name, *args)`: the context must hold a viewset
      that is not None; the name is reversed through it. */
  method ViewsetReverse(viewset: Option<ViewSet?>, name: string, args: seq<Datum>) returns (r: Result<LazyUrl>)
    requires viewset.Some? && viewset.value != null ==> viewset.value.Valid()
    modifies if viewset.Some? then {viewset.value} else {}
    ensures viewset.None? ==> r == Err(KeyError("viewset"))
    ensures viewset == Some(null) ==> r == Err(AssertionError(""))
    ensures viewset.Some? && viewset.value != null ==>
      r == Ok(LazyUrl(old(viewset.value.ReversedName(name)), args))
    ensures viewset.Some? && viewset.value != null ==>
      && viewset.value.Valid()
      && viewset.value.attrs == old(viewset.value.attrs)
      && viewset.value.urlsMemo == old(viewset.value.urlsMemo)
    ensures viewset.Some? && viewset.value != null && viewset.value.comp.namespacing != NoNamespace ==>
      viewset.value.Namespace() == old(viewset.value.Namespace())
  {
    if viewset.None? {
      return Err(KeyError("viewset"));
    }
    if viewset.value == null {
      return Err(AssertionError(""));
    }
    var url := viewset.value.Reverse(name, args);
    return Ok(url);
  }

  // ---------------------------------------------------------------------------
  // viewset_render_form

  /** A form, by the HTML its `as_table()` renders. */
  datatype Form = Form(asTable: string)

  /** `viewset_render_form(form)`: crispy-forms' rendering when the package is
      installed, else the form's own table rendering. */
  function RenderForm(form: Form, crispy: Option<Form -> string>): (html: string)
    ensures crispy.None? ==> html == form.asTable
    ensures crispy.Some? ==> html == crispy.value(form)
  {
    match crispy
    case None => form.asTable
    case Some(render) => render(form)
  }

  // ---------------------------------------------------------------------------
  // viewset_render_object

  /** `viewset_render_object(object)`: the title and value of every field the
      object's model lists, parents and relations included, as an OrderedDict. */
  function RenderObject(meta: ModelMeta, obj: Instance): Result<seq<Pair>>
  {
    match FieldPairs(meta.allFields, obj)
    case Err(e) => Err(e)
    case Ok(ps) => Ok(OrderedDictOf(ps))
  }

  /** Rendering succeeds exactly when the object has every listed field's
      attribute; its keys are then the titles of all listed fields, each once,
      and with distinct titles it lists every field's title and value in field
      order. */
  lemma RenderObjectSpec(meta: ModelMeta, obj: Instance)
    ensures RenderObject(meta, obj).Ok? <==> forall f :: f in meta.allFields ==> f.name in obj.attrs
    ensures RenderObject(meta, obj).Ok? ==>
      && DistinctKeys(RenderObject(meta, obj).value)
      && forall t :: t in KeysOf(RenderObject(meta, obj).value) <==>
           exists f :: f in meta.allFields && f.verboseName == t
    ensures (RenderObject(meta, obj).Ok? && DistinctTitles(meta.allFields)) ==>
      && |RenderObject(meta, obj).value| == |meta.allFields|
      && forall k :: 0 <= k < |meta.allFields| ==>
           RenderObject(meta, obj).value[k] == (meta.allFields[k].verboseName, obj.attrs[meta.allFields[k].name])
  {
    FieldPairsSpec(meta.allFields, obj);
    if FieldPairs(meta.allFields, obj).Ok? {
      FieldPairsTitles(meta.allFields, obj);
      if DistinctTitles(meta.allFields) {
        FieldPairsInOrder(meta.allFields, obj);
      }
    }
  }

  /** Where titles repeat, the OrderedDict keeps the value of the last field
      with that title: the k-th field's pair is shown when no later field
      shares its title. */
  lemma RenderObjectLastValue(meta: ModelMeta, obj: Instance, k: nat)
    requires RenderObject(meta, obj).Ok?
    requires k < |meta.allFields|
    requires forall j :: k < j < |meta.allFields| ==> meta.allFields[j].verboseName != meta.allFields[k].verboseName
    ensures meta.allFields[k].name in obj.attrs
    ensures (meta.allFields[k].verboseName, obj.attrs[meta.allFields[k].name]) in RenderObject(meta, obj).value
  {
    FieldPairsSpec(meta.allFields, obj);
    assert meta.allFields[k] in meta.allFields;
    OrderedDictOfLast(FieldPairs(meta.allFields, obj).value, k);
  }

  /** For a model without parents whose every field is concrete, the tag shows
      what `serialize_object` produces. */
  lemma RenderObjectMatchesSerialized(meta: ModelMeta, obj: Instance)
    requires meta.allFields == meta.ownFields
    requires forall f :: f in meta.ownFields ==> f.isConcreteField
    ensures RenderObject(meta, obj) == Serialized(meta, obj)
  {
    AllConcrete(meta.ownFields);
  }

  lemma {:induction false} AllConcrete(fs: seq<Field>)
    requires forall f :: f in fs ==> f.isConcreteField
    ensures ConcreteFields(fs) == fs
    decreases |fs|
  {
    if fs != [] {
      assert fs[0] in fs;
      assert forall f :: f in fs[1..] ==> f in fs;
      AllConcrete(fs[1..]);
    }
  }
}
